=== FILE: README.md ===
# pour: a Dafny model of the log-shipping client core

`pour` is an in-process telemetry client. Application code calls `Log`,
`LogTagged`, `LogColor` or `LogPanicKill`. Each call builds a log event and
puts it in two places: the remote buffer `cache`, and the local persister
`localLog`, which writes it to a per-run file. A periodic loop (`logLoop`)
sends the whole buffer to a collector and clears the buffer when the
collector answers 202. A second loop (`pollUsage`) sends hardware samples.
Each loop keeps a failure counter that stops growing at a cap.

The model has no package globals. Instead there is one state record
(`Pour.State`), and each step is a pure function that transforms it. The
modules follow the parts of `logic.go`:

- `Text`: the Go library behaviour the code relies on. This covers
  `strings.Split` (it never returns an empty list), the base name of a path,
  `fmt.Sprint` of an integer, and `strings.ReplaceAll` of one character.
  Split/join and print/parse round trips are proved.
- `Tags`: the default tag catalog, the normalisation of out-of-range tag
  ids to 1, and the tag-to-colour switch.
- `Events`: the message text and the `logModel` record each entry point
  builds. Also the diagnostic log calls made by failure paths.
- `Persist`: `localLog`. Events are buffered until a run id exists. After
  that, each call writes the backlog and then its own line, as
  `timestamp:message\n`.
- `Transport`: the collector URLs, and the outcome of each of the three
  stages of one shipment attempt: serialise, build the request, send. It
  also holds the verdict the code reaches from those outcomes and the
  capped counter increment.
- `Config`: the decisions `Setup` makes once a configuration is loaded:
  the TLS flag, the remote flag, the validity warning, the run id and the
  `uint` port.
- `Shipment`: one `logLoop` iteration and its `remoteLog` call.
- `Hardware`: `sendHardwareUsage`.
- `Pour`: the whole state, the three kinds of step (emit an event, a
  `logLoop` iteration, a hardware shipment) and properties over arbitrary
  runs.

Inputs the program gets from its environment become parameters:

- the caller's frame from `runtime.Caller`;
- the clock readings;
- the outcome of serialising, building and sending each request;
- the text `fmt.Sprint` gives for each argument. The model prints the
  argument slice itself (`Events.SliceText`), because that is what the log
  calls end up printing (see below).

`remoteLog` has a branch that switches remote shipping off for good
(logic.go:384-389). Its message says the shipment was retried
unsuccessfully 10 times. That branch never runs. Every increment of
`errorLogAmount` is guarded by `errorLogAmount < MAX_LOG_ERRORS`, and
`MAX_LOG_ERRORS = 2`. So the counter stops at 2, and the check
`errorLogAmount > 10` never holds. The model keeps the branch and proves
it unreachable (`Shipment.TicksNeverDisable`, `Pour.RunKeepsInvariant`).

An invalid configuration draws the warning "LogServer values invalid,
falling back to local" (logic.go:281-283). Yet line 291 then sets
`doRemote` from `remote_logs` whatever the validity. That is listed under
Findings. The hardware loop is started whatever `doRemote` says
(logic.go:292), and the model does the same.

`LogTagged` puts the caller's location into the message only. Its record
leaves `FileName` and `FileLine` empty (logic.go:189). `Log`, by contrast,
fills them in (logic.go:102-107). The model records the same.

`Log`, `LogColor` and `LogTagged` each start a goroutine and hand it `args`
rather than `args...` (logic.go:108, logic.go:125, logic.go:190). The
goroutine's own `args` therefore holds a single element, the caller's whole
slice, and its loop runs once over it. `fmt.Sprint` of a slice is its
elements, separated by spaces, between brackets. So `Log("a", "b")` called
at main.go:10 logs `main.go:10 [a b] `, and a call with no arguments logs
`[] `. The records the model builds carry this text
(`Events.LogMessageAsWritten`, `Events.ColorMessageAsWritten`), and the
read-back lemmas parse it. The message with the arguments spread, as
evidently intended, is `Events.CallerMessage` over the arguments
themselves; see "## Findings". `[]` and `[""]` print alike, so the
read-backs exclude the slice holding one empty string. `LogPanicKill`
loops over its own arguments and is not affected. The text of a record
plays no part in shipping or in the buffer accounting, so the run-level
properties hold for either text.

Where the code is evidently wrong (see "## Findings"), the module has two
versions side by side:

- a member named `…AsWritten` follows the code, panics included;
- the member without the suffix follows the evident intent.

The run-level state (`Pour.State`, `Pour.Step`, `Pour.Boot`) is built from
the corrected members. `Pour.BootAsWritten` and `Pour.StepAsWritten` are
the code's own setup and step. `Pour.BootsAgree` and
`Pour.StepAsWrittenAgrees` state when each coincides with its corrected
counterpart:

- setup: the TLS flag held before the file is read equals the file's, and
  the configuration is valid or does not ask for remote shipping;
- step: no shipment stage fails while its counter is at the cap.

`Pour.RunAsWrittenAgrees` extends the step condition to whole runs: an
as-written run whose every step meets it equals the corrected run, so every
run property proved of the corrected model holds of it as well. In both versions, the diagnostics a
step logs are returned as notes and not fed back into the buffers (see
"## Left out").

## Model

| member | source | states |
|---|---|---|
| `Text.JoinSplit` | logic.go:171 | Joining the pieces of `strings.Split` with the separator gives back the original string, so splitting loses nothing |
| `Text.SplitJoin` | logic.go:171 | Splitting a join of separator-free pieces returns exactly those pieces |
| `Text.SplitTerminated` | logic.go:179-181 | Splitting text built as "each piece followed by the separator" returns the pieces plus one trailing empty piece |
| `Text.BasenameIsLastSegment` | logic.go:171-173 | The base name has no '/', is a suffix of the path, and either is the whole path or follows a '/' |
| `Text.ParseIntToString` | logic.go:173 | The decimal text of the line number, sign included, reads back to the same integer |
| `Text.ReplaceChar` | logic.go:288 | The result has the same length; each ':' becomes '_' and every other character is kept |
| `Tags.DefaultTags` | logic.go:64-69 | The default catalog has three entries, and entry i has id i+1 |
| `Tags.NormalizeTag` | logic.go:149-151 | The resolved tag is at least 1 and at most the catalog size; a valid id is kept, and 0 or an id above the catalog size becomes 1 |
| `Tags.ResolvedTagInCatalog` | logic.go:149-151 | With the default catalog, `tags[tag-1]` is in range for every id and its id equals the resolved tag; 0 and ids above 3 resolve to Success |
| `Tags.NormalizeIdempotent` | logic.go:149-151 | Normalising an already normalised id changes nothing |
| `Tags.ColorFollowsCatalogName` | logic.go:154-163 | For a resolved id, green goes with Success, yellow with Warning and red with Error, in both directions; the white fallback is never taken |
| `Tags.TagColor` | logic.go:153-163 | Red exactly for Error (3), green exactly for Success (1), yellow exactly for Warning (2), and white exactly for any other id |
| `Tags.Code` | logic.go:446-453 | Every colour constant is an ANSI escape sequence: ESC, then text ending in 'm' |
| `Events.CallerMessage` | logic.go:165-181 | The message built from the elements the loop sees ends with those elements' text; without a frame it is just that text; with a frame it contains ':' and ' ' |
| `Events.FormatArgs` | logic.go:179-181 | The element loop builds each element followed by one space, in order |
| `Events.FormatCallerMessage` | logic.go:165-181 | The message-building code, including its never-taken `else` branch, computes the caller-located message |
| `Events.LogLoopSeesOneSlice` | logic.go:99-108 | Handed `args` as one value, the loop of `Log` and `LogTagged` runs once and builds the location, the bracketed slice and one space |
| `Events.ColorLoopSeesOneSlice` | logic.go:112-125 | Likewise the loop of `LogColor` builds the bracketed slice and one space |
| `Events.LogMessageAsWritten` | logic.go:85-108 | As written, the `Log`/`LogTagged` text starts with the location, then '[' opens the printed slice, and it ends in "] "; `Events.LogMessageReadsBack` pins down what lies between |
| `Events.ColorMessageAsWritten` | logic.go:112-125 | As written, the `LogColor` text opens with '[' and ends in "] "; `Events.ColorEventReadsBack` pins down what lies between |
| `Events.UnbracketSliceText` | logic.go:100 | The printed slice `[a b] ` reads back into its elements when none holds a space; the one-empty-element slice, which prints like the empty one, is the exception |
| `Events.LogMessageReadsBack` | logic.go:85-108 | As written, a located message reads back into the file's base name, the line and the arguments, when none holds a separator |
| `Events.ArgumentsArriveAsOneSlice` | logic.go:99-108 | `Log("a", "b")` logs the location followed by `[a b] ` as written, and the location followed by `a b ` with the arguments spread |
| `Events.LocationSplits` | logic.go:173 | The location prefix `base:line` splits on ':' into the base name and the line, and the line reads back to the number |
| `Events.CallerMessageWords` | logic.go:168-181 | Corrected (arguments spread): a located message splits on spaces into the location prefix, each argument, and one trailing empty piece |
| `Events.ParseCallerMessage` | logic.go:168-181 | Corrected (arguments spread): a located message splits back into the file's base name, the line and the arguments when none contains a separator |
| `Events.MessageWithoutLocation` | logic.go:85-125 | Without a caller frame, the text `Log` builds is the text `LogColor` builds, and it reads back into the arguments |
| `Events.PanicMessage` | logic.go:128-132 | The panic message starts with "PANIC:"; with no arguments it is exactly that, otherwise it ends in a space |
| `Events.PanicMessageArgs` | logic.go:129-132 | A `LogPanicKill` record's text is "PANIC:" followed by text that splits back into the arguments and one trailing empty piece: the loop spreads the arguments, so none is lost |
| `Events.ResolveCaller` | logic.go:142-147 | When the first frame exists and its file name contains "logic.go", the second frame is used; in every other case the first frame is kept |
| `Events.LogErrFrameSkipped` | logic.go:77-78 | `LogErr` calls `LogTagged` from a file ending in "logic.go", so its event is located at `LogErr`'s caller, whatever directory holds the file |
| `Events.TaggedEvent` | logic.go:148-190 | An empty catalog (the index panic) gives no event. Otherwise the record carries the catalog entry at the resolved id and, as written, the location followed by the bracketed argument slice, and is printed in the resolved id's colour. It records no file name or line |
| `Events.TaggedEventDefaultCatalog` | logic.go:148-163 | With the default catalog a tagged event always exists, carries the resolved id, and is printed in its resolved id's colour: red exactly for Error, green exactly for Success, yellow exactly for Warning |
| `Events.TaggedEventReadsBack` | logic.go:165-190 | A tagged event's text, as written, reads back into the caller's base name, its line and the arguments, when none of them holds a separator |
| `Events.PlainEvent` | logic.go:81-108 | A `Log` record is untagged and has the given time; it holds the caller's file and line when the frame is known, and otherwise empty fields and the text `LogColor` would build |
| `Events.ColorEvent` | logic.go:111-125 | A `LogColor` record is untagged and has no file or line; its text is a bracketed slice followed by a space |
| `Events.ColorEventReadsBack` | logic.go:111-125 | A `LogColor` record's text reads back into the call's arguments |
| `Events.PanicEvent` | logic.go:128-137 | A `LogPanicKill` record is untagged and has no file or line; its text starts with "PANIC:", and `Events.PanicMessageArgs` reads the rest back into the arguments |
| `Events.PlainEventLocation` | logic.go:102-108 | A `Log` event's text, as written, reads back into the base name of its `FileName` field, its `FileLine` field and the arguments |
| `Events.DiagnosticAsWrittenLeaksFlag` | logic.go:395 | As written, a coloured diagnostic's text has "[false " right after its location, followed by a raw escape character |
| `Events.DiagnosticMessageAsWritten` | logic.go:395 | As written, every diagnostic's text ends in "] ", the close of the printed slice, and a coloured note or an error starts with the caller's location; `Events.DiagnosticAsWrittenLeaksFlag` pins down what follows the location |
| `Events.DiagnosticCarriesWordsOnly` | logic.go:111-116 | Corrected (through `LogColor`, arguments spread): a diagnostic holds only its words, splits back into them, and has no escape character |
| `Persist.LogFilePath` | logic.go:204 | The log file path starts with the log directory and ends in ".log" |
| `Persist.LogFileNamedAfterRun` | logic.go:204 | For a run id without '/', the log file's base name is the run id followed by ".log" |
| `Persist.LocalLog` | logic.go:193-220 | Without a run id, the call buffers one entry and leaves the file alone; with one, it empties the backlog and writes backlog-plus-one lines |
| `Persist.WriteLocal` | logic.go:208-216 | The write loop appends every buffered record in order, then the new one, and empties the backlog |
| `Persist.LocalLogAppendsOne` | logic.go:197-216 | One call adds exactly its own record to file-then-backlog, buffered or flushed |
| `Persist.LocalLogAllAccounts` | logic.go:193-220 | After any calls, file-then-backlog is the earlier contents plus one record per call, in call order |
| `Persist.LocalLogAllPhases` | logic.go:197-200 | Without a run id the file never changes and the backlog collects every call; with one the backlog is empty after any call |
| `Persist.FileSplitsIntoRecords` | logic.go:209-214 | When no timestamp or message holds a line break, the file's bytes split back into one `timestamp:message` per record |
| `Transport.LogsUrl` | logic.go:398-402 | The log URL starts with the scheme the TLS flag selects and ends in "/logs" |
| `Transport.HardwareUrl` | logic.go:330-334 | The hardware URL starts with the scheme the TLS flag selects and ends in "/logs/projects/hardware" |
| `Transport.UrlSchemeFollowsTls` | logic.go:398-402 | The log URL starts with "https://" exactly when TLS is on, and with "http://" exactly when it is off |
| `Transport.LogsUrlIsJoin` | logic.go:398-402 | The log URL is its scheme, `//host` and `port/logs` joined by ':' |
| `Transport.LogsUrlSplits` | logic.go:402 | The log URL is scheme, host, port and "/logs" joined by ':'; all three parts can be read back |
| `Transport.HardwareUrlExtendsLogsUrl` | logic.go:334 | For a non-negative port, the hardware URL is the log URL followed by "/projects/hardware" |
| `Transport.Classify` | logic.go:392-422 | As written: the code panics exactly when a request fails to build at the cap; it accepts exactly on 202 after a built request, even if serialising failed at the cap |
| `Transport.ClassifyFixed` | logic.go:392-422 | Corrected: never panics, and accepts exactly when every stage succeeded and the status is 202 |
| `Transport.ClassifyAgreesUnlessStageFailsAtCap` | logic.go:392-422 | The as-written and corrected verdicts are the same exactly when the counter is below the cap or both serialising and building the request succeeded |
| `Transport.ClassifyPanicsAtCap` | logic.go:402-410 | At counter 2 an unbuildable request panics as written; corrected, it is a request error |
| `Transport.Charge` | logic.go:416-419 | The counter grows by one exactly when it is below the cap, and otherwise stays put, so it never passes the cap |
| `Config.Invalid` | logic.go:281 | A configuration that passes has a host, a positive port that `uint` leaves unchanged, a project key, a client and a client key; missing any of them fails it |
| `Config.GoUint` | logic.go:293 | `uint(config.Port)` is the port itself when non-negative, and the port plus 2^64 when negative |
| `Config.RunId` | logic.go:287-288 | The run id has the timestamp's length, no ':', and every other character unchanged |
| `Config.SetupNotes` | logic.go:281-290 | Setup logs the "falling back to local" warning first exactly when the configuration is invalid, and always ends with the two announcements, "Log-Server configured at host:port" and "Pour up and running.." |
| `Config.SetupAsWritten` | logic.go:269-291 | As written: TLS comes from the configuration held before the file is read, and remote follows `remote_logs` even if invalid. The warning is given iff invalid, followed by both announcements, and the run id has no ':' |
| `Config.Setup` | logic.go:269-291 | Corrected: TLS comes from the loaded file, and remote is on iff requested and the configuration is valid. The notes are the same as written, and the run id has no ':' |
| `Config.SetupIgnoresTlsFlag` | logic.go:269-271 | On the first setup a file with `"tls": true` still yields an "http://" log URL |
| `Config.SetupHonoursTlsFlag` | logic.go:269 | Corrected, the log URL is https exactly when the file asks for TLS |
| `Config.InvalidConfigStillRemote` | logic.go:281-291 | As written, an empty host triggers the fall-back warning, yet remote shipping is still on |
| `Config.InvalidConfigFallsBackToLocal` | logic.go:281-283 | Corrected, an invalid configuration means no remote shipping plus the warning; a valid one means no warning |
| `Config.ValidConfigEndpointsAgree` | logic.go:281 | For a valid configuration, the log endpoint (`uint` port) and the hardware endpoint (`int` port) name the same server |
| `Shipment.Disable` | logic.go:384-389 | The disabling branch turns remote shipping off, keeps buffer and counter, ships nothing, and logs the "re-tried ... 10 times" error |
| `Shipment.LogFailureNote` | logic.go:393-433 | A failure is reported as a red note of two words: the stage's message and the error; for a rejection, "Error logging" and the body, or the status code when the body cannot be read |
| `Shipment.ApplyLogVerdict` | logic.go:392-436 | Only the nil-request case panics. A 202 clears the buffer and ships what was sent; anything else keeps it and ships nothing. The counter grows by one exactly for a failure below the cap, with one note per increment, and the remote flag is kept |
| `Shipment.RemoteLogAsWritten` | logic.go:383-437 | As written: panics exactly when a request fails to build with the counter between 2 and 10. Without a panic the buffer is kept or cleared. Outside the marshal-at-cap case, shipped plus remaining equals the old buffer. In that case (serialising fails at the cap, then 202) the buffer is cleared while nothing was shipped. The counter grows by one iff below the cap and not delivered, and never passes 2 |
| `Shipment.RemoteLogAgrees` | logic.go:393-408 | When the counter is below the cap, or serialising and building both succeed, the as-written and corrected iterations give the same result |
| `Shipment.RemoteLogAsWrittenDropsBuffer` | logic.go:392-423 | With two failures counted, a serialisation error followed by a 202 for the empty body clears a non-empty buffer as written, with nothing shipped; corrected, the buffer is kept |
| `Shipment.RemoteLog` | logic.go:383-437 | The buffer is cleared and shipped iff the attempt was delivered (202), and is unchanged otherwise; the counter grows iff below cap and not delivered; `doRemote` is kept |
| `Shipment.LogLoopTick` | logic.go:370-376 | An iteration does nothing unless remote is on and the buffer is non-empty; shipped plus remaining equals the previous buffer |
| `Shipment.LogLoopTickAsWritten` | logic.go:373-375 | The iteration as written is gated the same way, and keeps the counter bound and the remote flag |
| `Shipment.TicksNeverDisable` | logic.go:384-389 | Over any run of as-written iterations the counter stays at most 2 and never falls, and remote shipping is never disabled |
| `Shipment.RemoteLogAsWrittenPanics` | logic.go:403-410 | With two failures counted and an unbuildable request, the as-written iteration panics |
| `Shipment.RemoteLogNeverPanics` | logic.go:403-408 | Corrected, no iteration panics, and an unbuildable request leaves the buffer in place |
| `Hardware.HardwareFailureNote` | logic.go:325-358 | A failure is reported as a red note of two words: the stage's message and the error, or the printed response for a rejection |
| `Hardware.ApplyHardwareVerdict` | logic.go:324-359 | Only the nil-request case panics; the counter grows by one exactly for a failure below the cap, never by more, with one note per increment |
| `Hardware.SendHardwareUsageAsWritten` | logic.go:323-360 | As written: panics exactly when the request fails to build at the cap. The counter grows by one iff below the cap and not delivered, never passes the cap, and one diagnostic goes with each increment |
| `Hardware.SendHardwareUsageAgrees` | logic.go:329-342 | When the counter is below the cap, or serialising and building both succeed, the as-written and corrected shipments give the same result |
| `Hardware.SendHardwareUsage` | logic.go:323-360 | Corrected: never panics; the counter grows by one iff below the cap and not delivered, never passes the cap, and one diagnostic goes with each increment |
| `Hardware.SendHardwareUsageAsWrittenPanics` | logic.go:335-342 | At the cap an unbuildable hardware request panics as written, and does not when corrected |
| `Pour.Boot` | logic.go:269-291 | Corrected setup: both counters are at zero, the catalog is the default three-entry catalog, and the run id has no ':'. TLS follows the file, and remote is on iff requested and valid. Buffer and backlog are kept, the file is empty, and the notes are the warning iff invalid followed by the two announcements |
| `Pour.BootAsWritten` | logic.go:269-291 | As written: zero counters, the default three-entry catalog, a run id without ':', the kept buffer and backlog, an empty file, and the same notes; TLS is the flag held before the file is read and remote follows `remote_logs` |
| `Pour.BootsAgree` | logic.go:269-291 | The as-written and corrected setups agree exactly when the earlier TLS flag equals the file's and the configuration is valid or does not ask for remote shipping |
| `Pour.StepAsWritten` | logic.go:323-437 | As written, a step panics exactly when a log iteration with remote on, a non-empty buffer and the counter at the cap fails to build its request, or a hardware shipment at the cap does. Otherwise the invariant is kept and, outside the marshal-at-cap loss, the buffer plus the emitted event equals what was shipped plus the buffer after |
| `Pour.StepAsWrittenAgrees` | logic.go:335-408 | When no stage fails with its counter at the cap, the as-written step takes exactly the corrected step |
| `Pour.Step` | logic.go:81-437 | A step keeps the catalog, the TLS flag and the run id; only a log call touches the local log, only a hardware shipment touches the hardware counter, and a hardware shipment leaves the remote buffer, counter and flag alone |
| `Pour.Run` | logic.go:292-293 | A run keeps the catalog, the TLS flag and the run id; the empty run changes nothing, ships nothing and logs nothing |
| `Pour.RunAsWritten` | logic.go:292-293 | The as-written run keeps the catalog and the TLS flag as long as nothing panics; the empty run changes nothing |
| `Pour.RunAsWrittenAgrees` | logic.go:335-408 | A run of the code as written in which no shipment stage fails with its counter at the cap never panics and equals the corrected run, step for step |
| `Pour.TaggedCallsResolveAfterBoot` | logic.go:148-189 | After setup and any run, the catalog is still the default one, so every `LogTagged` call finds an entry whose id is its resolved tag and never hits the empty-catalog index panic |
| `Pour.RunKeepsInvariant` | logic.go:50-54 | In any run both counters stay within their caps and never fall; catalog, TLS flag, run id and remote flag never change |
| `Pour.StepAccountsBuffer` | logic.go:104-107 | In one step, the buffer before plus the emitted event equals what was shipped plus the buffer after |
| `Pour.RunAccountsBuffer` | logic.go:370-437 | Over any run, the old buffer plus every emitted event equals everything the collector accepted plus the current buffer: nothing is lost or duplicated |
| `Pour.StepAccountsLocal` | logic.go:103 | One step adds to file-then-backlog exactly the record of the `localLog` call it makes, if any |
| `Pour.RunAccountsLocal` | logic.go:193-220 | Over any run, file-then-backlog grows by exactly one record per emitted event, in emission order |
| `Pour.RemoteOffKeepsEverything` | logic.go:373 | With remote shipping off, nothing is ever shipped and the buffer keeps every event |
| `Pour.FlushedRunKeepsNoBacklog` | logic.go:197-216 | Once a run id exists and the backlog is empty, every later `localLog` call writes straight to the file, so the backlog stays empty |
| `Pour.RemoteOffRunAfterSetup` | logic.go:193-220 | After setup with remote off, whatever happens, nothing is shipped, the buffer holds exactly the emitted events, and the log file holds exactly their records in order |

## Findings

| source | as written | input that shows it | evidently intended | confidence | as-written member | corrected member |
|---|---|---|---|---|---|---|
| logic.go:269-276 | `SetUseTLS(config.TLS)` runs before the configuration file is read, so it sees the zero value | first `Setup` with a file containing `"tls": true`: the client ships to `http://…` | TLS follows the file just read | high; not executed | `Config.SetupIgnoresTlsFlag` | `Config.SetupHonoursTlsFlag` |
| logic.go:403-410 | the early return on a `NewRequest` error is guarded by `errorLogAmount < MAX_LOG_ERRORS`; at the cap the code goes on to `req.Header.Add` on a nil request | host "bad host" (which `url.Parse` rejects), two failures already counted, non-empty buffer: nil dereference panic | return on any stage error; only the counter and the diagnostic depend on the cap | medium; not executed | `Shipment.RemoteLogAsWrittenPanics` | `Shipment.RemoteLogNeverPanics` |
| logic.go:335-342 | same guard in `sendHardwareUsage` | request that fails to build, `errorHardwareAmount` = 2: nil dereference panic | return on any stage error | medium; not executed | `Hardware.SendHardwareUsageAsWritten` | `Hardware.SendHardwareUsage` |
| logic.go:395 | failure diagnostics call `Log(false, ColorRed, …)`, but `Log` takes only arguments | a transport error below the cap, through the same call at logic.go:418: the logged text is `logic.go:418 [false ESC[31m Error transmitting logs <error>] `; the invalid-configuration warning at logic.go:282 leaks the same way | `LogColor(false, ColorRed, …)`, which logs only the words | high; not executed | `Events.DiagnosticAsWrittenLeaksFlag` | `Events.DiagnosticCarriesWordsOnly` |
| logic.go:281-291 | an invalid configuration only logs "falling back to local"; `doRemote` is still set from `remote_logs` | `remote_logs: true` with an empty host: remote shipping is on | an invalid configuration turns remote shipping off | medium; not executed | `Config.InvalidConfigStillRemote` | `Config.InvalidConfigFallsBackToLocal` |
| logic.go:99-108 | `Log` hands `args` to its goroutine without `...`, and so do `LogColor` (logic.go:125) and `LogTagged` (logic.go:190); each loop prints the whole slice once | `Log("a", "b")` called at main.go:10: the logged text is `main.go:10 [a b] ` | hand on `args...`, giving `main.go:10 a b ` | high; not executed | `Events.ArgumentsArriveAsOneSlice` | `Events.ParseCallerMessage` |
| logic.go:392-396 | the return on a `json.Marshal` error is guarded by `errorLogAmount < MAX_LOG_ERRORS`; at the cap the code posts the empty body, and a 202 clears `cache.items` | none while `logModel` keeps its present fields: they are strings and integers (logic.go:21-27, logic.go:36-40), which `json.Marshal` always serialises. Were a field added that can fail to serialise: two failures counted, a non-empty buffer whose serialisation fails, collector answers 202, and the buffer is emptied with nothing sent | return on any stage error, so the buffer stays for the next iteration | low; not executed (latent: unreachable with the present record type) | `Shipment.RemoteLogAsWrittenDropsBuffer` | `Shipment.RemoteLog` |

## Left out

- Goroutines, `sync.RWMutex` and the sleeps. Every log call, loop iteration and hardware shipment is one atomic step. Three effects of the real interleaving are not modelled:
  - `logLoop` reads `cache.items` without the lock (logic.go:373-374). An event appended between that read and `remoteLog` taking the lock would be cleared on 202 without having been sent.
  - `Log`, `LogColor` and `LogTagged` append their record from a goroutine of their own (logic.go:83, logic.go:112, logic.go:148), and hand the text to `localLog` in yet another (logic.go:103, logic.go:120, logic.go:186). Records reach the buffer and the file in the order those goroutines take the locks. That need not be the order of the calls, nor the same order for both. `Pour.RunAccountsBuffer` and `Pour.RunAccountsLocal` are stated for the order in which the steps are taken.
  - `pollUsage` starts each `sendHardwareUsage` in a goroutine (logic.go:318), and `errorHardwareAmount` is checked and incremented without a lock (logic.go:325-356). Overlapping shipments can each pass the check, and push the counter past 2.
- Hardware.SendHardwareUsage: the bound `errorHardwareAmount <= 2` is proved for shipments taken one at a time; overlapping shipments in the program can exceed it.
- Hardware.SendHardwareUsageAsWritten: the same bound, with the same restriction to one shipment at a time.
- Pour.RunKeepsInvariant: the hardware counter bound holds for atomic steps only, for the same reason.
- `LogPanicKill`'s `os.Exit`, and the asynchronous `localLog` it starts just before exiting, which may never run. The model builds its message and event only (`Events.PanicEvent`).
- `net/http`, request headers, the skip-verify TLS client and `json.Marshal`. Each attempt is an abstract outcome per stage (`Transport.Attempt`).
- Transport.Classify: the serialising stage of a log shipment may fail in the model, though `json.Marshal` of `[]logModel` cannot fail while the record holds only strings and integers (logic.go:21-27). The model therefore admits runs the program cannot reach: `Shipment.LogFailureNote`'s marshal note and `Shipment.RemoteLogAsWrittenDropsBuffer` describe such runs. The hardware sample holds floating-point figures, which can fail to serialise, so its stage is kept as is.
- `gopsutil` memory and CPU sampling in `pollUsage`. These are foreign calls producing floating-point figures, so a hardware shipment carries only its attempt outcome.
- The filesystem: `exists`, `os.Mkdir`, `os.OpenFile`, and `log.Fatal` on a write failure. The log file is the sequence of lines written to it, and writes are taken to succeed.
- `runtime.Caller` (the frame is an input), `time` formatting, time-zone loading, and `prnt` console output.
- `Setup`'s handling of the configuration file: creating it, reading it and decoding it. `Config.Setup` starts from the decoded configuration.
- `fmt.Sprint` of arbitrary values. Arguments arrive already rendered as text; only integers and the argument slice are printed by the model itself.
- Diagnostics logged by failure paths and by `Setup` (the warning and the two announcements) are returned as a list. They are not fed back into the buffers as new events, and the order in which their goroutines would run is not modelled.

=== FILE: config.dfy ===
/**
  The decisions `Setup` takes once the configuration has been loaded: the
  TLS flag, whether remote shipping is on, the validity warning, the run id
  and the port `logLoop` receives. Reading and creating the configuration
  file, the time zone and the log directory are not modelled.
 */
module Config {
  import opened Text
  import opened Tags
  import opened Events
  import opened Transport

  type Int64 = x: int | -0x8000_0000_0000_0000 <= x < 0x8000_0000_0000_0000

  /** `PourConfig`, as `json.Unmarshal` fills it. */
  datatype PourConfig = PourConfig(
    remoteLogs: bool,
    projectKey: string,
    host: string,
    port: Int64,
    client: string,
    clientKey: string,
    tls: bool)

  /** The zero value the package-level `config` holds before the file is read. */
  const ZeroConfig: PourConfig := PourConfig(false, "", "", 0, "", "", false)

  /** The check `Setup` makes before announcing the collector. A configuration that passes
      names a host, a positive port, which `uint` conversion leaves unchanged, and all three
      credentials; missing any one of them fails it. */
  function Invalid(c: PourConfig): (r: bool)
    ensures !r ==> c.host != "" && c.port > 0 && GoUint(c.port) == c.port
    ensures !r ==> c.projectKey != "" && c.client != "" && c.clientKey != ""
    ensures c.host == "" || c.port <= 0 ==> r
    ensures c.projectKey == "" || c.client == "" || c.clientKey == "" ==> r
  {
    c.host == "" || c.port <= 0 || c.projectKey == "" || c.client == "" || c.clientKey == ""
  }

  /** `uint(config.Port)` on a 64-bit platform: two's-complement reinterpretation. */
  function GoUint(p: Int64): (u: nat)
    ensures u < 0x1_0000_0000_0000_0000
    ensures p >= 0 ==> u == p
    ensures p < 0 ==> u == p + 0x1_0000_0000_0000_0000
  {
    p % 0x1_0000_0000_0000_0000
  }

  /** The run id: the start timestamp with every ':' replaced by '_'. */
  function RunId(timestamp: string): (r: string)
    ensures |r| == |timestamp|
    ensures ':' !in r
    ensures forall i :: 0 <= i < |r| && timestamp[i] != ':' ==> r[i] == timestamp[i]
  {
    ReplaceChar(timestamp, ':', '_')
  }

  const InvalidWarning: string := "LogServer values invalid, falling back to local"

  /** What `Setup` leaves behind for the running client. */
  datatype Settings = Settings(
    useTLS: bool,
    doRemote: bool,
    runTime: string,
    host: string,
    logPort: nat,
    notes: seq<Diagnostic>)

  /** The two announcements `Setup` always makes through `LogColor`: where the collector
      is, and that the client is running. */
  function Announcements(c: PourConfig): seq<Diagnostic> {
    [ Announcement(Purple, ["Log-Server configured at", c.host + ":" + IntToString(c.port)]),
      Announcement(Green, ["Pour up and running.."]) ]
  }

  /** What `Setup` logs about a loaded configuration: the warning when it is invalid, then
      the two announcements. */
  function SetupNotes(c: PourConfig): (notes: seq<Diagnostic>)
    ensures |notes| == (if Invalid(c) then 1 else 0) + 2
    ensures notes[0] == ColoredNote(Purple, [InvalidWarning]) <==> Invalid(c)
    ensures notes[|notes| - 2..] == Announcements(c)
  {
    (if Invalid(c) then [ColoredNote(Purple, [InvalidWarning])] else []) + Announcements(c)
  }

  /** `Setup` as written: `SetUseTLS(config.TLS)` runs before the file is read, so it sees
      the configuration held before (the zero value on the first call); remote shipping
      follows `remote_logs` even when the configuration was found invalid. */
  function SetupAsWritten(prior: PourConfig, loaded: PourConfig, timestamp: string): (r: Settings)
    ensures r.useTLS == prior.tls
    ensures r.doRemote == loaded.remoteLogs
    ensures ':' !in r.runTime && |r.runTime| == |timestamp|
    ensures |r.notes| == (if Invalid(loaded) then 1 else 0) + 2
    ensures r.notes[0] == ColoredNote(Purple, [InvalidWarning]) <==> Invalid(loaded)
    ensures r.notes[|r.notes| - 2..] == Announcements(loaded)
  {
    Settings(
      prior.tls,
      loaded.remoteLogs,
      RunId(timestamp),
      loaded.host,
      GoUint(loaded.port),
      SetupNotes(loaded))
  }

  /** `Setup` as evidently intended: the TLS flag comes from the file just read, and an
      invalid configuration really falls back to local-only logging. */
  function Setup(loaded: PourConfig, timestamp: string): (r: Settings)
    ensures r.useTLS == loaded.tls
    ensures r.doRemote <==> loaded.remoteLogs && !Invalid(loaded)
    ensures ':' !in r.runTime && |r.runTime| == |timestamp|
    ensures |r.notes| == (if Invalid(loaded) then 1 else 0) + 2
    ensures r.notes[0] == ColoredNote(Purple, [InvalidWarning]) <==> Invalid(loaded)
    ensures r.notes[|r.notes| - 2..] == Announcements(loaded)
    ensures r.doRemote ==> r.logPort == loaded.port
  {
    Settings(
      loaded.tls,
      loaded.remoteLogs && !Invalid(loaded),
      RunId(timestamp),
      loaded.host,
      GoUint(loaded.port),
      SetupNotes(loaded))
  }

  /** The first `Setup` ignores the file's `tls` setting: with `"tls": true` the client still
      ships over plain http. */
  lemma SetupIgnoresTlsFlag(loaded: PourConfig, timestamp: string)
    requires loaded.tls
    ensures var r := SetupAsWritten(ZeroConfig, loaded, timestamp);
            !r.useTLS && LogsUrl(r.useTLS, r.host, r.logPort)[..7] == "http://"
  {
    UrlSchemeFollowsTls(false, loaded.host, GoUint(loaded.port));
  }

  /** Corrected, the log URL is https exactly when the file asks for TLS. */
  lemma SetupHonoursTlsFlag(loaded: PourConfig, timestamp: string)
    ensures var r := Setup(loaded, timestamp);
            var url := LogsUrl(r.useTLS, r.host, r.logPort);
            |url| >= 8 && url[..8] == "https://" <==> loaded.tls
  {
    UrlSchemeFollowsTls(loaded.tls, loaded.host, GoUint(loaded.port));
  }

  /** As written, a configuration with an empty host still turns remote shipping on, right
      after the warning that says it falls back to local. */
  lemma InvalidConfigStillRemote(timestamp: string)
    ensures var loaded := PourConfig(true, "key", "", 12555, "client", "secret", true);
            var r := SetupAsWritten(ZeroConfig, loaded, timestamp);
            && Invalid(loaded)
            && r.doRemote
            && r.notes[0] == ColoredNote(Purple, [InvalidWarning])
  {
  }

  /** Corrected, remote shipping is on only for a valid configuration, and the warning is
      given exactly when it is off for that reason. */
  lemma InvalidConfigFallsBackToLocal(loaded: PourConfig, timestamp: string)
    ensures var r := Setup(loaded, timestamp);
            && (Invalid(loaded) ==> !r.doRemote && r.notes[0] == ColoredNote(Purple, [InvalidWarning]))
            && (!Invalid(loaded) ==> r.doRemote == loaded.remoteLogs && r.notes == Announcements(loaded))
  {
  }

  /** For a valid configuration `logLoop`'s `uint` port is the configured port, so the log
      and hardware endpoints name the same server; a negative port wraps around in the
      log endpoint only. */
  lemma ValidConfigEndpointsAgree(c: PourConfig, useTLS: bool)
    requires !Invalid(c)
    ensures HardwareUrl(useTLS, c.host, c.port) == LogsUrl(useTLS, c.host, GoUint(c.port)) + "/projects/hardware"
  {
    HardwareUrlExtendsLogsUrl(useTLS, c.host, c.port);
  }

}

=== FILE: events.dfy ===
/**
  Event synthesis: the message text `Log`, `LogTagged`, `LogColor` and
  `LogPanicKill` build from their arguments, the `logModel` record they
  enqueue, and the diagnostic log calls made by failure paths.

  Arguments arrive already rendered: each element is the text `fmt.Sprint`
  gives for it. The caller's frame (`runtime.Caller`) is an input.

  `Log`, `LogColor` and `LogTagged` hand their arguments to a goroutine as
  `args`, not `args...`, so the goroutine's loop sees a single element, the
  whole slice, and prints it in brackets. The records below carry that text;
  the message with the arguments spread, as evidently intended, is
  `CallerMessage` over the arguments themselves.
 */
module Events {
  import opened Wrappers
  import opened Text
  import opened Tags

  /** What `runtime.Caller` reports: whether a frame was found, its file and its line. */
  datatype Frame = Frame(ok: bool, file: string, line: int)

  /** `logModel`, the record kept in the remote buffer. */
  datatype LogEvent = LogEvent(log: string, time: string, tag: Tag, fileName: string, fileLine: int)

  /** A tagged event together with the console colour it is printed in. */
  datatype Tagged = Tagged(event: LogEvent, color: Color)

  /** The location and arguments a caller-located message can be read back into. */
  datatype Parsed = Parsed(file: string, line: int, args: seq<string>)

  /** Every argument followed by one space. */
  function ArgsText(args: seq<string>): string {
    Terminated(args, ' ')
  }

  /** `basename:line ` when the frame is known, nothing otherwise. */
  function Location(f: Frame): string {
    if f.ok then Basename(f.file) + ":" + IntToString(f.line) + " " else ""
  }

  /** The message the `Log`/`LogTagged` goroutine builds from the elements its loop sees:
      the location, then each element followed by a space. */
  function CallerMessage(f: Frame, args: seq<string>): (msg: string)
    ensures |ArgsText(args)| <= |msg|
    ensures msg[|msg| - |ArgsText(args)|..] == ArgsText(args)
    ensures !f.ok ==> msg == ArgsText(args)
    ensures f.ok ==> ':' in msg && ' ' in msg
  {
    var loc := Location(f);
    assert f.ok ==> loc[|Basename(f.file)|] == ':' && loc[|loc| - 1] == ' ';
    assert (loc + ArgsText(args))[..|loc|] == loc;
    loc + ArgsText(args)
  }

  /** The message of `LogPanicKill`, whose loop runs over its own arguments: "PANIC:", then
      each argument followed by a space. */
  function PanicMessage(args: seq<string>): (m: string)
    ensures |m| >= 6 && m[..6] == "PANIC:"
    ensures |args| == 0 ==> m == "PANIC:"
    ensures |args| > 0 ==> m[|m| - 1] == ' '
  {
    "PANIC:" + ArgsText(args)
  }

  /** The element loop shared by every entry point: `str += fmt.Sprint(element) + " "`. */
  method FormatArgs(args: seq<string>) returns (str: string)
    ensures str == ArgsText(args)
  {
    str := "";
    var i := 0;
    while i < |args|
      invariant 0 <= i <= |args|
      invariant str == Terminated(args[..i], ' ')
    {
      assert args[..i + 1][..i] == args[..i];
      str := str + args[i] + " ";
      i := i + 1;
    }
    assert args[..|args|] == args;
  }

  /** The body of `Log`/`LogTagged` that builds the message, including the split of the
      file name and its `else` branch, which cannot be reached because a split is never empty. */
  method FormatCallerMessage(f: Frame, args: seq<string>) returns (msg: string)
    ensures msg == CallerMessage(f, args)
  {
    msg := "";
    if f.ok {
      var lastFiles := Split(f.file, '/');
      if |lastFiles| > 0 {
        msg := msg + lastFiles[|lastFiles| - 1] + ":" + IntToString(f.line) + " ";
      } else {
        assert false;
      }
    }
    var i := 0;
    ghost var loc := msg;
    assert loc == Location(f);
    while i < |args|
      invariant 0 <= i <= |args|
      invariant msg == loc + Terminated(args[..i], ' ')
    {
      assert args[..i + 1][..i] == args[..i];
      msg := msg + args[i] + " ";
      i := i + 1;
    }
    assert args[..|args|] == args;
  }

  /** `fmt.Sprint` of a `[]interface{}` whose elements print as `items`: the elements
      separated by single spaces between brackets, `[a b]`, or `[]` when there are none. */
  function SliceText(items: seq<string>): (t: string)
    ensures |t| >= 2 && t[0] == '[' && t[|t| - 1] == ']'
  {
    if |items| == 0 then "[]" else "[" + Join(items, ' ') + "]"
  }

  /** The one element the goroutines of `Log`, `LogColor` and `LogTagged` loop over: the
      call's arguments, handed on as a single slice value. */
  function Forwarded(args: seq<string>): seq<string> {
    [SliceText(args)]
  }

  /** The text `Log` and `LogTagged` build as written: the location, the bracketed slice
      and one space. */
  function LogMessageAsWritten(f: Frame, args: seq<string>): (msg: string)
    ensures |msg| == |Location(f)| + |SliceText(args)| + 1
    ensures msg[..|Location(f)|] == Location(f) && msg[|Location(f)|] == '['
    ensures msg[|msg| - 2..] == "] "
  {
    Location(f) + SliceText(args) + " "
  }

  /** The text `LogColor` builds as written: the bracketed slice and one space. */
  function ColorMessageAsWritten(args: seq<string>): (msg: string)
    ensures |msg| == |SliceText(args)| + 1
    ensures msg[0] == '[' && msg[|msg| - 2..] == "] "
  {
    SliceText(args) + " "
  }

  /** The loop of `Log` and `LogTagged`, run over what the goroutine receives, builds
      `LogMessageAsWritten`: it runs once, over the forwarded slice. */
  lemma LogLoopSeesOneSlice(f: Frame, args: seq<string>)
    ensures CallerMessage(f, Forwarded(args)) == LogMessageAsWritten(f, args)
  {
    TerminatedSingle(SliceText(args), ' ');
  }

  /** Likewise the loop of `LogColor` builds `ColorMessageAsWritten`. */
  lemma ColorLoopSeesOneSlice(args: seq<string>)
    ensures ArgsText(Forwarded(args)) == ColorMessageAsWritten(args)
  {
    TerminatedSingle(SliceText(args), ' ');
  }

  /** Reads the text of one forwarded slice, `[a b] `, back into the slice's elements. */
  function Unbracket(t: string): Option<seq<string>> {
    if |t| < 3 || t[0] != '[' || t[|t| - 2..] != "] " then None
    else if |t| == 3 then Some([])
    else Some(Split(t[1..|t| - 2], ' '))
  }

  /** Reads a message as the code writes it back into base name, line and arguments. */
  function ParseMessageAsWritten(msg: string): Option<Parsed> {
    var k := IndexOf(msg, ' ');
    if k == |msg| then None
    else
      var head := Split(msg[..k], ':');
      if |head| != 2 then None
      else match (ParseInt(head[1]), Unbracket(msg[k + 1..]))
        case (Some(n), Some(args)) => Some(Parsed(head[0], n, args))
        case _ => None
  }

  /** Reads a message with the arguments spread back into base name, line and arguments. */
  function ParseMessage(msg: string): Option<Parsed> {
    var words := Split(msg, ' ');
    if |words| < 2 || words[|words| - 1] != "" then None
    else
      var head := Split(words[0], ':');
      if |head| != 2 then None
      else match ParseInt(head[1])
        case None => None
        case Some(n) => Some(Parsed(head[0], n, words[1..|words| - 1]))
  }

  /** The location prefix `base:line` splits on ':' back into the base name and the
      line, which parses back to the number. */
  lemma LocationSplits(b: string, line: int)
    requires ':' !in b
    ensures var parts := Split(b + ":" + IntToString(line), ':');
            parts == [b, IntToString(line)] && ParseInt(parts[1]) == Some(line)
  {
    var l := IntToString(line);
    assert ':' !in l;
    assert Join([b, l], ':') == b + ":" + l;
    SplitJoin([b, l], ':');
    ParseIntToString(line);
  }

  /** With the arguments spread, a message with a known location splits on spaces into
      the location prefix, the arguments, and one trailing empty piece. */
  lemma CallerMessageWords(f: Frame, args: seq<string>)
    requires f.ok
    requires ' ' !in Basename(f.file)
    requires Free(args, ' ')
    ensures Split(CallerMessage(f, args), ' ')
            == [Basename(f.file) + ":" + IntToString(f.line)] + args + [""]
  {
    var b := Basename(f.file);
    var l := IntToString(f.line);
    var head := b + ":" + l;
    assert ' ' !in head by {
      assert forall k :: 0 <= k < |head| ==> head[k] == (if k < |b| then b[k] else if k == |b| then ':' else l[k - |b| - 1]);
    }
    TerminatedSingle(head, ' ');
    TerminatedAppend([head], args, ' ');
    assert CallerMessage(f, args) == Terminated([head] + args, ' ');
    assert Free([head] + args, ' ') by {
      forall i | 0 <= i < |[head] + args|
        ensures ' ' !in ([head] + args)[i]
      {
        if i > 0 { assert ([head] + args)[i] == args[i - 1]; }
      }
    }
    SplitTerminated([head] + args, ' ');
  }

  /** With the arguments spread, a message with a known location reads back into the base
      name, the line and the arguments, when none holds the separators the format uses. */
  lemma ParseCallerMessage(f: Frame, args: seq<string>)
    requires f.ok
    requires ' ' !in Basename(f.file) && ':' !in Basename(f.file)
    requires Free(args, ' ')
    ensures ParseMessage(CallerMessage(f, args)) == Some(Parsed(Basename(f.file), f.line, args))
  {
    var head := Basename(f.file) + ":" + IntToString(f.line);
    CallerMessageWords(f, args);
    LocationSplits(Basename(f.file), f.line);
    var words := [head] + args + [""];
    assert words[0] == head;
    assert words[1..|words| - 1] == args;
  }

  /** The bracketed text of a slice reads back into its elements. `[]` and `[""]` print
      alike, so the one-empty-element slice is the only one that does not. */
  lemma UnbracketSliceText(items: seq<string>)
    requires Free(items, ' ') && items != [""]
    ensures Unbracket(SliceText(items) + " ") == Some(items)
  {
    if |items| > 0 {
      var j := Join(items, ' ');
      var t := SliceText(items) + " ";
      assert t == "[" + j + "] ";
      if |items| == 1 {
        assert items == [items[0]];
      }
      assert |j| > 0;
      assert t[1..|t| - 2] == j;
      SplitJoin(items, ' ');
    }
  }

  /** A location prefix `b:line ` followed by a bracketed slice reads back into its parts. */
  lemma ParseLocatedSlice(b: string, line: int, rest: string, args: seq<string>)
    requires ' ' !in b && ':' !in b
    requires Unbracket(rest) == Some(args)
    ensures ParseMessageAsWritten(b + ":" + IntToString(line) + " " + rest) == Some(Parsed(b, line, args))
  {
    var l := IntToString(line);
    var head := b + ":" + l;
    assert ' ' !in head by {
      assert forall k :: 0 <= k < |head| ==> head[k] == (if k < |b| then b[k] else if k == |b| then ':' else l[k - |b| - 1]);
    }
    var msg := b + ":" + l + " " + rest;
    assert msg == head + [' '] + rest;
    IndexAfterFreePrefix(head, ' ', rest);
    assert msg[..|head|] == head;
    assert msg[|head| + 1..] == rest;
    LocationSplits(b, line);
  }

  /** As written, a message with a known location reads back into the base name, the line
      and the arguments, when none holds the separators the format uses. */
  lemma LogMessageReadsBack(f: Frame, args: seq<string>)
    requires f.ok
    requires ' ' !in Basename(f.file) && ':' !in Basename(f.file)
    requires Free(args, ' ') && args != [""]
    ensures ParseMessageAsWritten(LogMessageAsWritten(f, args)) == Some(Parsed(Basename(f.file), f.line, args))
  {
    var b := Basename(f.file);
    var rest := SliceText(args) + " ";
    UnbracketSliceText(args);
    ParseLocatedSlice(b, f.line, rest, args);
    assert LogMessageAsWritten(f, args) == b + ":" + IntToString(f.line) + " " + rest;
  }

  /** Without a location the `Log`/`LogTagged` text is the `LogColor` text, which reads back
      into the arguments. */
  lemma MessageWithoutLocation(f: Frame, args: seq<string>)
    requires !f.ok
    requires Free(args, ' ') && args != [""]
    ensures LogMessageAsWritten(f, args) == ColorMessageAsWritten(args)
    ensures Unbracket(LogMessageAsWritten(f, args)) == Some(args)
  {
    UnbracketSliceText(args);
  }

  /** As written, `Log("a", "b")` logs the location followed by `[a b] `; with the
      arguments spread it would log the location followed by `a b `. */
  lemma ArgumentsArriveAsOneSlice(f: Frame)
    ensures LogMessageAsWritten(f, ["a", "b"]) == Location(f) + "[a b] "
    ensures CallerMessage(f, ["a", "b"]) == Location(f) + "a b "
  {
    assert SliceText(["a", "b"]) == "[a b]" by {
      assert ["a", "b"][1..] == ["b"];
    }
    assert ArgsText(["a", "b"]) == "a b " by {
      assert ["a", "b"][..1] == ["a"];
      TerminatedSingle("a", ' ');
    }
  }

  /** The event `Log` enqueues: untagged, with the caller's file and line when known. */
  function PlainEvent(f: Frame, args: seq<string>, time: string): (e: LogEvent)
    ensures e.tag == ZeroTag && e.time == time
    ensures f.ok ==> e.fileName == f.file && e.fileLine == f.line
    ensures !f.ok ==> e.fileName == "" && e.fileLine == 0 && e.log == ColorMessageAsWritten(args)
  {
    LogEvent(LogMessageAsWritten(f, args), time, ZeroTag, if f.ok then f.file else "", if f.ok then f.line else 0)
  }

  /** The event `LogColor` enqueues: untagged, with no location anywhere. */
  function ColorEvent(args: seq<string>, time: string): (e: LogEvent)
    ensures e.tag == ZeroTag && e.time == time && e.fileName == "" && e.fileLine == 0
    ensures |e.log| >= 3 && e.log[0] == '[' && e.log[|e.log| - 2..] == "] "
  {
    LogEvent(ColorMessageAsWritten(args), time, ZeroTag, "", 0)
  }

  /** A `LogColor` event's text reads back into the call's arguments. */
  lemma ColorEventReadsBack(args: seq<string>, time: string)
    requires Free(args, ' ') && args != [""]
    ensures Unbracket(ColorEvent(args, time).log) == Some(args)
  {
    UnbracketSliceText(args);
  }

  /** The text after "PANIC:" splits back into the arguments and one trailing empty piece:
      `LogPanicKill` spreads its arguments, so nothing is lost. */
  lemma PanicMessageArgs(args: seq<string>, time: string)
    requires Free(args, ' ')
    ensures var m := PanicEvent(args, time).log;
            |m| >= 6 && m[..6] == "PANIC:" && Split(m[6..], ' ') == args + [""]
  {
    var m := PanicEvent(args, time).log;
    assert m[6..] == ArgsText(args);
    SplitTerminated(args, ' ');
  }

  /** The event `LogPanicKill` enqueues before the process exits: untagged, no location. */
  function PanicEvent(args: seq<string>, time: string): (e: LogEvent)
    ensures e.tag == ZeroTag && e.time == time && e.fileName == "" && e.fileLine == 0
    ensures |e.log| >= 6 && e.log[..6] == "PANIC:"
  {
    LogEvent(PanicMessage(args), time, ZeroTag, "", 0)
  }

  /** `LogTagged`'s choice of frame: skip one more frame when the first lies in logic.go. */
  function ResolveCaller(first: Frame, second: Frame): (f: Frame)
    ensures first.ok && Contains(first.file, "logic.go") ==> f == second
    ensures !(first.ok && Contains(first.file, "logic.go")) ==> f == first
  {
    if first.ok && Contains(first.file, "logic.go") then second else first
  }

  /** `LogErr` calls `LogTagged` from logic.go itself, so its own frame is skipped and the
      event is located at `LogErr`'s caller. */
  lemma LogErrFrameSkipped(dir: string, line: int, second: Frame)
    ensures ResolveCaller(Frame(true, dir + "logic.go", line), second) == second
  {
    var path := dir + "logic.go";
    assert path[|path| - 8..] == "logic.go";
    ContainsSuffix(path, "logic.go");
  }

  /** The event `LogTagged` enqueues and the colour it prints in. `tags[tag-1]` is an
      index panic when the catalog is still empty (before setup); that is `None`. The record
      carries no location: `LogTagged` puts the location into the message only. */
  function TaggedEvent(tags: seq<Tag>, tag: nat, f: Frame, args: seq<string>, time: string): (r: Option<Tagged>)
    ensures r.None? <==> |tags| == 0
    ensures r.Some? ==> r.value.event.tag in tags
    ensures r.Some? ==> r.value.event.tag == tags[NormalizeTag(tag, |tags|) - 1]
    ensures r.Some? ==> r.value.color == TagColor(NormalizeTag(tag, |tags|))
    ensures r.Some? ==> r.value.event.log == LogMessageAsWritten(f, args)
    ensures r.Some? ==> r.value.event.fileName == "" && r.value.event.fileLine == 0
  {
    var resolved := NormalizeTag(tag, |tags|);
    if |tags| == 0 then None
    else
      var entry := tags[resolved - 1];
      assert entry in tags;
      var event := LogEvent(LogMessageAsWritten(f, args), time, entry, "", 0);
      Some(Tagged(event, TagColor(resolved)))
  }

  /** With the default catalog a tagged event always exists, carries a catalog entry whose
      id is the resolved tag, and is printed in the colour its name suggests. */
  lemma TaggedEventDefaultCatalog(tag: nat, f: Frame, args: seq<string>, time: string)
    ensures var r := TaggedEvent(DefaultTags(), tag, f, args, time);
            && r.Some?
            && r.value.event.tag.id == NormalizeTag(tag, 3)
            && r.value.color == TagColor(NormalizeTag(tag, 3))
            && (r.value.color == Red <==> r.value.event.tag.name == "Error")
            && (r.value.color == Green <==> r.value.event.tag.name == "Success")
            && (r.value.color == Yellow <==> r.value.event.tag.name == "Warning")
  {
    ResolvedTagInCatalog(tag);
    ColorFollowsCatalogName(tag);
  }

  /** The message of a tagged event reads back into the caller's base name and line and the
      arguments, the only place the record keeps the location. */
  lemma TaggedEventReadsBack(tags: seq<Tag>, tag: nat, f: Frame, args: seq<string>, time: string)
    requires |tags| > 0
    requires f.ok && ' ' !in Basename(f.file) && ':' !in Basename(f.file)
    requires Free(args, ' ') && args != [""]
    ensures var r := TaggedEvent(tags, tag, f, args, time);
            r.Some? && ParseMessageAsWritten(r.value.event.log) == Some(Parsed(Basename(f.file), f.line, args))
  {
    LogMessageReadsBack(f, args);
  }

  /** A `Log` event's message agrees with the location fields of the record. */
  lemma PlainEventLocation(f: Frame, args: seq<string>, time: string)
    requires f.ok && ' ' !in Basename(f.file) && ':' !in Basename(f.file)
    requires Free(args, ' ') && args != [""]
    ensures var e := PlainEvent(f, args, time);
            ParseMessageAsWritten(e.log) == Some(Parsed(Basename(e.fileName), e.fileLine, args))
  {
    LogMessageReadsBack(f, args);
  }

  /** A log call the client makes about itself: a coloured note written as
      `Log(false, color, words...)`, an error through `LogErr` (tagged Error), or an
      announcement that really goes through `LogColor(false, color, words...)`. */
  datatype Diagnostic =
    | ColoredNote(color: Color, words: seq<string>)
    | ErrorNote(words: seq<string>)
    | Announcement(color: Color, words: seq<string>)

  /** The text each diagnostic logs as written. Coloured notes are `Log(false, color,
      words...)`: `Log` takes only arguments, so the flag and the escape code become the
      first two elements of the bracketed slice. */
  function DiagnosticMessageAsWritten(f: Frame, d: Diagnostic): (msg: string)
    ensures |msg| >= 3 && msg[|msg| - 2..] == "] "
    ensures !d.Announcement? ==> |Location(f)| < |msg| && msg[..|Location(f)|] == Location(f)
  {
    match d
    case ColoredNote(color, words) => LogMessageAsWritten(f, ["false", Code(color)] + words)
    case ErrorNote(words) => LogMessageAsWritten(f, words)
    case Announcement(_, words) => ColorMessageAsWritten(words)
  }

  /** The intended text: coloured notes through `LogColor(false, color, words...)`, and every
      call handing its arguments on spread, so the words alone follow the location. */
  function DiagnosticMessage(f: Frame, d: Diagnostic): string {
    match d
    case ColoredNote(_, words) => ArgsText(words)
    case ErrorNote(words) => CallerMessage(f, words)
    case Announcement(_, words) => ArgsText(words)
  }

  /** The slice `Log(false, color, words...)` forwards prints as "[false " followed by the
      escape code. */
  lemma FlagLeadsSlice(code: string, words: seq<string>)
    requires |code| >= 1
    ensures var t := SliceText(["false", code] + words);
            |t| > 7 && t[..7] == "[false " && t[7] == code[0]
  {
    var items := ["false", code] + words;
    assert items[1..] == [code] + words;
    var j := Join([code] + words, ' ');
    JoinHead([code] + words, ' ');
    assert Join(items, ' ') == "false" + [' '] + j;
    assert SliceText(items) == "[" + ("false" + [' '] + j) + "]";
  }

  /** As written, every coloured diagnostic's text holds "[false " right after the
      location, followed by a raw escape character. */
  lemma DiagnosticAsWrittenLeaksFlag(f: Frame, color: Color, words: seq<string>)
    ensures var msg := DiagnosticMessageAsWritten(f, ColoredNote(color, words));
            var at := |Location(f)|;
            && |msg| > at + 7
            && msg[at..at + 7] == "[false "
            && msg[at + 7] == Escape
  {
    var code := Code(color);
    FlagLeadsSlice(code, words);
    var t := SliceText(["false", code] + words);
    var loc := Location(f);
    var msg := DiagnosticMessageAsWritten(f, ColoredNote(color, words));
    assert msg == loc + t + " ";
    assert msg[|loc|..|loc| + 7] == t[..7];
    assert msg[|loc| + 7] == t[7];
  }

  /** The intended diagnostic text holds no escape character unless a word does, and its
      words read back. */
  lemma DiagnosticCarriesWordsOnly(f: Frame, color: Color, words: seq<string>)
    requires forall i :: 0 <= i < |words| ==> Escape !in words[i]
    requires Free(words, ' ')
    ensures var msg := DiagnosticMessage(f, ColoredNote(color, words));
            Escape !in msg && Split(msg, ' ') == words + [""]
  {
    TerminatedAvoids(words, ' ', Escape);
    SplitTerminated(words, ' ');
  }

}

=== FILE: hardware.dfy ===
/**
  `sendHardwareUsage`: one hardware sample shipped to the collector. The
  sample itself (memory and CPU figures) is not modelled; only the outcome
  of the attempt and the failure counter `errorHardwareAmount` are.
 */
module Hardware {
  import opened Tags
  import opened Events
  import opened Transport

  /** `MAX_HARDWARE_ERRORS`. */
  const MaxHardwareErrors: nat := 2

  datatype HardwareResult = HardwareResult(errorHardwareAmount: nat, notes: seq<Diagnostic>, panicked: bool)

  /** The diagnostic `sendHardwareUsage` logs for a failed attempt: a red note of two
      words, a heading naming the stage and the error, or the printed response. */
  function HardwareFailureNote(v: Verdict): (d: Diagnostic)
    requires IsFailure(v)
    ensures d.ColoredNote? && d.color == Red && |d.words| == 2
    ensures v.MarshalError? || v.RequestError? || v.TransportError? ==> d.words[1] == v.err
    ensures v.Rejected? ==> d.words[1] == v.printed
  {
    match v
    case MarshalError(err) => ColoredNote(Red, ["Error marshalling hardware-info", err])
    case RequestError(err) => ColoredNote(Red, ["Error creating hardware-info request", err])
    case TransportError(err) => ColoredNote(Red, ["Error transmitting hardware-info", err])
    case Rejected(_, _, printed) => ColoredNote(Red, ["Error transmitting hardware-info", printed])
  }

  /** What `sendHardwareUsage` does with a verdict: a failure charges the counter, with one
      note per charge. */
  function ApplyHardwareVerdict(counter: nat, v: Verdict): (r: HardwareResult)
    ensures r.panicked <==> v.NilRequestPanic?
    ensures r.errorHardwareAmount == counter + 1 <==> IsFailure(v) && counter < MaxHardwareErrors
    ensures r.errorHardwareAmount == counter || r.errorHardwareAmount == counter + 1
    ensures |r.notes| == r.errorHardwareAmount - counter
  {
    if v.Accepted? then HardwareResult(counter, [], false)
    else if v.NilRequestPanic? then HardwareResult(counter, [], true)
    else
      HardwareResult(
        Charge(counter, MaxHardwareErrors),
        if counter < MaxHardwareErrors then [HardwareFailureNote(v)] else [],
        false)
  }

  /** `sendHardwareUsage` as written. */
  function SendHardwareUsageAsWritten(counter: nat, a: Attempt): (r: HardwareResult)
    ensures r.panicked <==> counter >= MaxHardwareErrors && a.request.Failed?
    ensures counter <= r.errorHardwareAmount <= counter + 1
    ensures r.errorHardwareAmount == counter + 1 <==> counter < MaxHardwareErrors && !Delivered(a)
    ensures counter <= MaxHardwareErrors ==> r.errorHardwareAmount <= MaxHardwareErrors
    ensures |r.notes| == r.errorHardwareAmount - counter
  {
    ApplyHardwareVerdict(counter, Classify(counter, MaxHardwareErrors, a))
  }

  /** `sendHardwareUsage` with the request guard corrected. There is no ceiling: the
      sampler never stops shipping. */
  function SendHardwareUsage(counter: nat, a: Attempt): (r: HardwareResult)
    ensures !r.panicked
    ensures counter <= r.errorHardwareAmount <= counter + 1
    ensures r.errorHardwareAmount == counter + 1 <==> counter < MaxHardwareErrors && !Delivered(a)
    ensures counter <= MaxHardwareErrors ==> r.errorHardwareAmount <= MaxHardwareErrors
    ensures |r.notes| == r.errorHardwareAmount - counter
  {
    ApplyHardwareVerdict(counter, ClassifyFixed(a))
  }

  /** Below the cap, or when the body and the request were both built, the code as written
      does exactly what the corrected shipment does. */
  lemma SendHardwareUsageAgrees(counter: nat, a: Attempt)
    requires counter < MaxHardwareErrors || (a.marshal.Done? && a.request.Done?)
    ensures SendHardwareUsageAsWritten(counter, a) == SendHardwareUsage(counter, a)
  {
    ClassifyAgreesUnlessStageFailsAtCap(counter, MaxHardwareErrors, a);
  }

  /** As written, a hardware request that cannot be built panics once two failures have
      been counted. */
  lemma SendHardwareUsageAsWrittenPanics()
    ensures SendHardwareUsageAsWritten(MaxHardwareErrors, Attempt(Done, Failed("invalid URL"), NoResponse(""))).panicked
    ensures !SendHardwareUsage(MaxHardwareErrors, Attempt(Done, Failed("invalid URL"), NoResponse(""))).panicked
  {
  }

}

=== FILE: persist.dfy ===
/**
  The local persister `localLog`: before a run id exists every call only
  buffers its entry in `localcache`; once it exists, each call appends the
  buffered backlog and then its own entry to the run's log file, one
  `timestamp:message\n` record each, and empties the backlog.

  The log file is the sequence of records written to it; opening, writing
  and closing it are taken to succeed (a failure ends the process).
 */
module Persist {
  import opened Text

  /** One buffered `localLog` call. */
  datatype Entry = Entry(msg: string, time: string)

  /** `runTime`, `localcache` and the contents of `logs/<runTime>.log`. */
  datatype LocalState = LocalState(runTime: string, backlog: seq<Entry>, file: seq<string>)

  /** The text of one record, without its line break. */
  function RecordText(e: Entry): string {
    e.time + ":" + e.msg
  }

  /** One line of the log file. */
  function Record(e: Entry): string {
    RecordText(e) + "\n"
  }

  function Records(es: seq<Entry>): (rs: seq<string>)
    ensures |rs| == |es|
    decreases |es|
  {
    if |es| == 0 then [] else Records(es[..|es| - 1]) + [Record(es[|es| - 1])]
  }

  function RecordTexts(es: seq<Entry>): (ts: seq<string>)
    ensures |ts| == |es|
    decreases |es|
  {
    if |es| == 0 then [] else RecordTexts(es[..|es| - 1]) + [RecordText(es[|es| - 1])]
  }

  /** The bytes of the file: its records one after another. */
  function Concat(lines: seq<string>): string
    decreases |lines|
  {
    if |lines| == 0 then "" else Concat(lines[..|lines| - 1]) + lines[|lines| - 1]
  }

  /** The path of the run's log file under the configured log directory. */
  function LogFilePath(logPath: string, runTime: string): (p: string)
    ensures |p| == |logPath| + |runTime| + 10
    ensures p[..|logPath|] == logPath
    ensures p[|p| - 4..] == ".log"
  {
    logPath + "/logs/" + runTime + ".log"
  }

  /** The run's log file is named after the run: its base name is the run id with ".log"
      appended, whatever the log directory. */
  lemma LogFileNamedAfterRun(logPath: string, runTime: string)
    requires '/' !in runTime
    ensures Basename(LogFilePath(logPath, runTime)) == runTime + ".log"
  {
    var p := LogFilePath(logPath, runTime);
    var name := runTime + ".log";
    var b := Basename(p);
    BasenameIsLastSegment(p);
    assert p == (logPath + "/logs/") + name;
    var k := |p| - |name|;
    assert p[k - 1] == '/';
    assert p[k..] == name;
    assert b == p[k..];
  }

  /** `localLog(msg, time)`. */
  function LocalLog(s: LocalState, msg: string, time: string): (r: LocalState)
    ensures r.runTime == s.runTime
    ensures s.runTime == "" ==> r.file == s.file && |r.backlog| == |s.backlog| + 1
    ensures s.runTime != "" ==> r.backlog == [] && |r.file| == |s.file| + |s.backlog| + 1
  {
    if s.runTime == "" then s.(backlog := s.backlog + [Entry(msg, time)])
    else LocalState(s.runTime, [], s.file + Records(s.backlog) + [Record(Entry(msg, time))])
  }

  /** The loop of `localLog`: write each buffered entry, then the new one. */
  method WriteLocal(s: LocalState, msg: string, time: string) returns (r: LocalState)
    ensures r == LocalLog(s, msg, time)
  {
    if s.runTime == "" {
      return s.(backlog := s.backlog + [Entry(msg, time)]);
    }
    var file := s.file;
    var i := 0;
    while i < |s.backlog|
      invariant 0 <= i <= |s.backlog|
      invariant file == s.file + Records(s.backlog[..i])
    {
      assert s.backlog[..i + 1][..i] == s.backlog[..i];
      file := file + [Record(s.backlog[i])];
      i := i + 1;
    }
    assert s.backlog[..|s.backlog|] == s.backlog;
    file := file + [Record(Entry(msg, time))];
    r := LocalState(s.runTime, [], file);
  }

  /** The i-th line written is the record of the i-th entry. */
  lemma {:induction false} RecordsAt(es: seq<Entry>)
    ensures forall i :: 0 <= i < |es| ==> Records(es)[i] == Record(es[i])
    decreases |es|
  {
    if |es| > 0 {
      var init := es[..|es| - 1];
      RecordsAt(init);
      assert Records(es) == Records(init) + [Record(es[|es| - 1])];
      assert forall i :: 0 <= i < |init| ==> es[i] == init[i];
    }
  }

  lemma RecordsAppend(a: seq<Entry>, b: seq<Entry>)
    ensures Records(a + b) == Records(a) + Records(b)
  {
    RecordsAt(a + b);
    RecordsAt(a);
    RecordsAt(b);
    var l, r := Records(a + b), Records(a) + Records(b);
    assert |l| == |r|;
    forall i | 0 <= i < |l|
      ensures l[i] == r[i]
    {
      if i < |a| {
        assert (a + b)[i] == a[i];
      } else {
        assert (a + b)[i] == b[i - |a|];
      }
    }
  }

  /** What the file plus the backlog say has been logged, in order. */
  function Logged(s: LocalState): seq<string> {
    s.file + Records(s.backlog)
  }

  /** One call adds exactly its own record to what has been logged: nothing is lost,
      duplicated or reordered, whether it is buffered or flushed. */
  lemma LocalLogAppendsOne(s: LocalState, msg: string, time: string)
    ensures Logged(LocalLog(s, msg, time)) == Logged(s) + [Record(Entry(msg, time))]
  {
    RecordsAppend(s.backlog, [Entry(msg, time)]);
    assert Records([Entry(msg, time)]) == [Record(Entry(msg, time))];
  }

  /** A sequence of `localLog` calls from one state. */
  function LocalLogAll(s: LocalState, es: seq<Entry>): (r: LocalState)
    ensures r.runTime == s.runTime
    decreases |es|
  {
    if |es| == 0 then s
    else var last := es[|es| - 1]; LocalLog(LocalLogAll(s, es[..|es| - 1]), last.msg, last.time)
  }

  /** After any calls, the file followed by the backlog is the earlier log followed by one
      record per call, in call order. */
  lemma {:induction false} LocalLogAllAccounts(s: LocalState, es: seq<Entry>)
    ensures Logged(LocalLogAll(s, es)) == Logged(s) + Records(es)
    decreases |es|
  {
    if |es| > 0 {
      var init := es[..|es| - 1];
      var last := es[|es| - 1];
      LocalLogAllAccounts(s, init);
      LocalLogAppendsOne(LocalLogAll(s, init), last.msg, last.time);
      assert Records(es) == Records(init) + [Record(last)];
      assert es == init + [last];
    }
  }

  /** Before a run id exists nothing reaches the file; once it exists, the backlog is
      empty after every call and the file holds everything. */
  lemma {:induction false} LocalLogAllPhases(s: LocalState, es: seq<Entry>)
    ensures s.runTime == "" ==>
              LocalLogAll(s, es).file == s.file && LocalLogAll(s, es).backlog == s.backlog + es
    ensures s.runTime != "" && |es| > 0 ==> LocalLogAll(s, es).backlog == []
    decreases |es|
  {
    if |es| > 0 {
      var init := es[..|es| - 1];
      LocalLogAllPhases(s, init);
      assert es == init + [es[|es| - 1]];
    }
  }

  lemma {:induction false} ConcatRecords(es: seq<Entry>)
    ensures Concat(Records(es)) == Terminated(RecordTexts(es), '\n')
    decreases |es|
  {
    if |es| > 0 {
      var init := es[..|es| - 1];
      ConcatRecords(init);
      assert Records(es)[..|es| - 1] == Records(init);
      assert RecordTexts(es)[..|es| - 1] == RecordTexts(init);
    }
  }

  lemma {:induction false} RecordTextsFree(es: seq<Entry>)
    requires forall i :: 0 <= i < |es| ==> '\n' !in es[i].msg && '\n' !in es[i].time
    ensures Free(RecordTexts(es), '\n')
    decreases |es|
  {
    if |es| > 0 {
      RecordTextsFree(es[..|es| - 1]);
      var e := es[|es| - 1];
      var t := RecordText(e);
      assert forall k :: 0 <= k < |t| ==> t[k] == (if k < |e.time| then e.time[k] else if k == |e.time| then ':' else e.msg[k - |e.time| - 1]);
    }
  }

  /** When no message or timestamp holds a line break, the bytes of the file split on
      line breaks back into one `timestamp:message` text per record, in order. */
  lemma FileSplitsIntoRecords(es: seq<Entry>)
    requires forall i :: 0 <= i < |es| ==> '\n' !in es[i].msg && '\n' !in es[i].time
    ensures Split(Concat(Records(es)), '\n') == RecordTexts(es) + [""]
  {
    ConcatRecords(es);
    RecordTextsFree(es);
    SplitTerminated(RecordTexts(es), '\n');
  }

}

=== FILE: pour.dfy ===
/**
  The whole client as one state record replacing the package globals, and
  its steps: an event emitted by one of the public log calls, an iteration
  of `logLoop`, and a hardware sample shipped by `pollUsage`. Each step is
  atomic; the goroutines, locks and sleeps that interleave them in the
  program are not modelled.
 */
module Pour {
  import opened Wrappers
  import opened Tags
  import opened Events
  import opened Persist
  import opened Transport
  import opened Config
  import opened Shipment
  import opened Hardware

  datatype State = State(
    tags: seq<Tag>,
    ship: ShipState,
    local: LocalState,
    useTLS: bool,
    errorHardwareAmount: nat)

  /** `Emit` carries the event the log call enqueues and the timestamp its `localLog`
      call was given (the program reads the clock twice). */
  datatype Action =
    | Emit(event: LogEvent, localTime: string)
    | LogTick(attempt: Attempt)
    | HardwareTick(attempt: Attempt)

  /** The state after some steps, the events the collector accepted, and the diagnostics
      the failure paths logged, all in order. */
  datatype Outcome = Outcome(state: State, accepted: seq<LogEvent>, notes: seq<Diagnostic>)

  predicate Inv(s: State) {
    Bounded(s.ship) && s.errorHardwareAmount <= MaxHardwareErrors
  }

  /** The state the corrected `Setup` leaves, with what it logged: default catalog,
      counters at zero, run id and flags from the configuration, and whatever the bootstrap
      phase already buffered. */
  function Boot(loaded: PourConfig, timestamp: string, cache: seq<LogEvent>, backlog: seq<Entry>): (b: Outcome)
    ensures Inv(b.state) && b.state.ship.errorLogAmount == 0 && b.state.errorHardwareAmount == 0
    ensures b.state.ship.doRemote <==> loaded.remoteLogs && !Invalid(loaded)
    ensures b.state.useTLS == loaded.tls
    ensures ':' !in b.state.local.runTime && |b.state.local.runTime| == |timestamp|
    ensures b.state.tags == DefaultTags() && |b.state.tags| == 3
    ensures b.state.ship.cache == cache && b.state.local.backlog == backlog && b.state.local.file == []
    ensures b.accepted == [] && |b.notes| == (if Invalid(loaded) then 1 else 0) + 2
    ensures b.notes[0] == ColoredNote(Purple, [InvalidWarning]) <==> Invalid(loaded)
    ensures b.notes[|b.notes| - 2..] == Announcements(loaded)
  {
    var settings := Setup(loaded, timestamp);
    Outcome(
      State(DefaultTags(), ShipState(cache, 0, settings.doRemote),
            LocalState(settings.runTime, backlog, []), settings.useTLS, 0),
      [], settings.notes)
  }

  /** The same with `Setup` as written: TLS from the configuration held before, and remote
      shipping from `remote_logs` whether or not the configuration is valid. */
  function BootAsWritten(prior: PourConfig, loaded: PourConfig, timestamp: string, cache: seq<LogEvent>, backlog: seq<Entry>): (b: Outcome)
    ensures Inv(b.state) && b.state.ship.errorLogAmount == 0 && b.state.errorHardwareAmount == 0
    ensures b.state.ship.doRemote == loaded.remoteLogs
    ensures b.state.useTLS == prior.tls
    ensures ':' !in b.state.local.runTime && |b.state.local.runTime| == |timestamp|
    ensures b.state.tags == DefaultTags() && |b.state.tags| == 3
    ensures b.state.ship.cache == cache && b.state.local.backlog == backlog && b.state.local.file == []
    ensures b.accepted == [] && |b.notes| == (if Invalid(loaded) then 1 else 0) + 2
    ensures b.notes[0] == ColoredNote(Purple, [InvalidWarning]) <==> Invalid(loaded)
    ensures b.notes[|b.notes| - 2..] == Announcements(loaded)
  {
    var settings := SetupAsWritten(prior, loaded, timestamp);
    Outcome(
      State(DefaultTags(), ShipState(cache, 0, settings.doRemote),
            LocalState(settings.runTime, backlog, []), settings.useTLS, 0),
      [], settings.notes)
  }

  /** The two setups leave the same client exactly when the configuration is valid or does
      not ask for remote shipping, and the TLS flag held before is the one the file sets. */
  lemma BootsAgree(prior: PourConfig, loaded: PourConfig, timestamp: string, cache: seq<LogEvent>, backlog: seq<Entry>)
    ensures BootAsWritten(prior, loaded, timestamp, cache, backlog) == Boot(loaded, timestamp, cache, backlog)
            <==> prior.tls == loaded.tls && !(Invalid(loaded) && loaded.remoteLogs)
  {
    var w := BootAsWritten(prior, loaded, timestamp, cache, backlog);
    var c := Boot(loaded, timestamp, cache, backlog);
    if w == c {
      assert w.state.useTLS == c.state.useTLS && w.state.ship.doRemote == c.state.ship.doRemote;
    }
  }

  /** One atomic step of the client: a log call appends its event to the buffer and hands its
      text to `localLog`; a `logLoop` iteration or a hardware shipment touches only its own
      part of the state. The catalog, TLS flag and run id are never changed. */
  function Step(s: State, st: Action): (o: Outcome)
    ensures o.state.tags == s.tags && o.state.useTLS == s.useTLS
    ensures o.state.local.runTime == s.local.runTime
    ensures !st.Emit? ==> o.state.local == s.local
    ensures !st.HardwareTick? ==> o.state.errorHardwareAmount == s.errorHardwareAmount
    ensures st.HardwareTick? ==> o.state.ship == s.ship
  {
    match st
    case Emit(event, localTime) =>
      var local := LocalLog(s.local, event.log, localTime);
      Outcome(s.(local := local, ship := s.ship.(cache := s.ship.cache + [event])), [], [])
    case LogTick(a) =>
      var r := LogLoopTick(s.ship, a);
      Outcome(s.(ship := r.state), r.accepted, r.notes)
    case HardwareTick(a) =>
      var r := SendHardwareUsage(s.errorHardwareAmount, a);
      Outcome(s.(errorHardwareAmount := r.errorHardwareAmount), [], r.notes)
  }

  /** A step of the code as written; `None` when it panics, which ends the process. */
  function StepAsWritten(s: State, a: Action): (r: Option<Outcome>)
    ensures r.None? <==>
              || (a.LogTick? && s.ship.doRemote && |s.ship.cache| > 0
                  && MaxLogErrors <= s.ship.errorLogAmount <= DisableCeiling && a.attempt.request.Failed?)
              || (a.HardwareTick? && s.errorHardwareAmount >= MaxHardwareErrors && a.attempt.request.Failed?)
    ensures r.Some? && Inv(s) ==> Inv(r.value.state)
    ensures r.Some? && !(a.LogTick? && s.ship.doRemote && |s.ship.cache| > 0 && BufferLost(s.ship, a.attempt)) ==>
              s.ship.cache + EmittedBy(a) == r.value.accepted + r.value.state.ship.cache
  {
    match a
    case Emit(_, _) => Some(Step(s, a))
    case LogTick(at) =>
      var r := LogLoopTickAsWritten(s.ship, at);
      if r.panicked then None else Some(Outcome(s.(ship := r.state), r.accepted, r.notes))
    case HardwareTick(at) =>
      var r := SendHardwareUsageAsWritten(s.errorHardwareAmount, at);
      if r.panicked then None else Some(Outcome(s.(errorHardwareAmount := r.errorHardwareAmount), [], r.notes))
  }

  /** No shipment stage failed with its counter at the cap. */
  predicate Ordinary(s: State, a: Action) {
    match a
    case Emit(_, _) => true
    case LogTick(at) => s.ship.errorLogAmount < MaxLogErrors || (at.marshal.Done? && at.request.Done?)
    case HardwareTick(at) => s.errorHardwareAmount < MaxHardwareErrors || (at.marshal.Done? && at.request.Done?)
  }

  /** Away from a stage error at the cap the code as written takes exactly the corrected
      step, so everything proved of corrected runs holds of such runs of the program. */
  lemma StepAsWrittenAgrees(s: State, a: Action)
    requires Ordinary(s, a)
    ensures StepAsWritten(s, a) == Some(Step(s, a))
  {
    match a
    case Emit(_, _) =>
    case LogTick(at) =>
      if s.ship.doRemote && |s.ship.cache| > 0 {
        RemoteLogAgrees(s.ship, at);
      }
    case HardwareTick(at) =>
      SendHardwareUsageAgrees(s.errorHardwareAmount, at);
  }

  /** The steps taken one after the other, collecting what was accepted and logged. */
  function Run(s: State, steps: seq<Action>): (o: Outcome)
    ensures o.state.tags == s.tags && o.state.useTLS == s.useTLS
    ensures o.state.local.runTime == s.local.runTime
    ensures |steps| == 0 ==> o == Outcome(s, [], [])
    decreases |steps|
  {
    if |steps| == 0 then Outcome(s, [], [])
    else
      var prev := Run(s, steps[..|steps| - 1]);
      var o := Step(prev.state, steps[|steps| - 1]);
      Outcome(o.state, prev.accepted + o.accepted, prev.notes + o.notes)
  }

  /** The steps of the code as written taken one after the other; `None` once one panics. */
  function RunAsWritten(s: State, steps: seq<Action>): (r: Option<Outcome>)
    ensures |steps| == 0 ==> r == Some(Outcome(s, [], []))
    ensures r.Some? ==> r.value.state.tags == s.tags && r.value.state.useTLS == s.useTLS
    decreases |steps|
  {
    if |steps| == 0 then Some(Outcome(s, [], []))
    else
      match RunAsWritten(s, steps[..|steps| - 1])
      case None => None
      case Some(prev) =>
        match StepAsWritten(prev.state, steps[|steps| - 1])
        case None => None
        case Some(o) => Some(Outcome(o.state, prev.accepted + o.accepted, prev.notes + o.notes))
  }

  /** Every step of the run meets `Ordinary` in the state the corrected run has reached. */
  predicate OrdinaryRun(s: State, steps: seq<Action>) {
    forall i :: 0 <= i < |steps| ==> Ordinary(Run(s, steps[..i]).state, steps[i])
  }

  /** A run of the code as written in which no shipment stage fails with its counter at the
      cap takes exactly the corrected run, so every property proved of `Run` holds of it. */
  lemma {:induction false} RunAsWrittenAgrees(s: State, steps: seq<Action>)
    requires OrdinaryRun(s, steps)
    ensures RunAsWritten(s, steps) == Some(Run(s, steps))
    decreases |steps|
  {
    if |steps| > 0 {
      var init := steps[..|steps| - 1];
      var last := steps[|steps| - 1];
      assert OrdinaryRun(s, init) by {
        forall i | 0 <= i < |init|
          ensures Ordinary(Run(s, init[..i]).state, init[i])
        {
          assert init[..i] == steps[..i];
          assert init[i] == steps[i];
        }
      }
      RunAsWrittenAgrees(s, init);
      var prev := Run(s, init);
      assert steps[..|steps| - 1] == init;
      assert Ordinary(prev.state, last);
      StepAsWrittenAgrees(prev.state, last);
    }
  }

  /** The catalog setup installs is never changed, so after setup every `LogTagged` call finds
      its entry: the index panic of an empty catalog cannot happen. */
  lemma TaggedCallsResolveAfterBoot(loaded: PourConfig, timestamp: string, steps: seq<Action>,
                                   tag: nat, f: Frame, args: seq<string>, time: string)
    ensures var s := Run(Boot(loaded, timestamp, [], []).state, steps).state;
            && s.tags == DefaultTags()
            && TaggedEvent(s.tags, tag, f, args, time).Some?
            && TaggedEvent(s.tags, tag, f, args, time).value.event.tag.id == NormalizeTag(tag, 3)
  {
    TaggedEventDefaultCatalog(tag, f, args, time);
  }

  /** The events one step emits. */
  function EmittedBy(a: Action): seq<LogEvent> {
    if a.Emit? then [a.event] else []
  }

  /** The events the steps emit, in order. */
  function Emitted(steps: seq<Action>): seq<LogEvent>
    decreases |steps|
  {
    if |steps| == 0 then []
    else Emitted(steps[..|steps| - 1]) + EmittedBy(steps[|steps| - 1])
  }

  /** The `localLog` call one step makes, if any. */
  function LocalEntryBy(a: Action): seq<Entry> {
    if a.Emit? then [Entry(a.event.log, a.localTime)] else []
  }

  /** The `localLog` calls the steps make, in order. */
  function LocalEntries(steps: seq<Action>): seq<Entry>
    decreases |steps|
  {
    if |steps| == 0 then []
    else LocalEntries(steps[..|steps| - 1]) + LocalEntryBy(steps[|steps| - 1])
  }

  /** Any run keeps both counters at or below their caps and never lowers them; the catalog,
      the TLS flag, the run id and the remote flag never change, so the disabling branch of
      `remoteLog` is never taken. */
  lemma {:induction false} RunKeepsInvariant(s: State, steps: seq<Action>)
    requires Inv(s)
    ensures var t := Run(s, steps).state;
            && Inv(t)
            && s.ship.errorLogAmount <= t.ship.errorLogAmount
            && s.errorHardwareAmount <= t.errorHardwareAmount
            && t.ship.doRemote == s.ship.doRemote
            && t.tags == s.tags && t.useTLS == s.useTLS && t.local.runTime == s.local.runTime
    decreases |steps|
  {
    if |steps| > 0 {
      var init := steps[..|steps| - 1];
      RunKeepsInvariant(s, init);
      var prev := Run(s, init).state;
      assert Run(s, steps).state == Step(prev, steps[|steps| - 1]).state;
    }
  }

  /** One step: the buffer before it plus what it emits is what it shipped plus the buffer after. */
  lemma StepAccountsBuffer(s: State, a: Action)
    ensures var o := Step(s, a);
            s.ship.cache + EmittedBy(a) == o.accepted + o.state.ship.cache
  {
  }

  /** Two accounting steps compose: what the buffer held plus both emissions is both
      shipments plus what is left. */
  lemma ComposeAccounts<T>(c0: seq<T>, e1: seq<T>, e2: seq<T>, a1: seq<T>, c1: seq<T>, a2: seq<T>, c2: seq<T>)
    requires c0 + e1 == a1 + c1
    requires c1 + e2 == a2 + c2
    ensures c0 + (e1 + e2) == (a1 + a2) + c2
  {
    calc {
      c0 + (e1 + e2);
      (c0 + e1) + e2;
      (a1 + c1) + e2;
      a1 + (c1 + e2);
      a1 + (a2 + c2);
    }
  }

  /** The remote buffer loses and duplicates nothing: what it held, followed by everything
      emitted since, is exactly what the collector accepted followed by what it holds now. */
  lemma {:induction false} RunAccountsBuffer(s: State, steps: seq<Action>)
    ensures var o := Run(s, steps);
            s.ship.cache + Emitted(steps) == o.accepted + o.state.ship.cache
    decreases |steps|
  {
    if |steps| > 0 {
      var init := steps[..|steps| - 1];
      var last := steps[|steps| - 1];
      RunAccountsBuffer(s, init);
      var prev := Run(s, init);
      StepAccountsBuffer(prev.state, last);
      var o := Step(prev.state, last);
      ComposeAccounts(s.ship.cache, Emitted(init), EmittedBy(last), prev.accepted, prev.state.ship.cache, o.accepted, o.state.ship.cache);
    }
  }


  /** One step adds to file-then-backlog exactly the record of its `localLog` call. */
  lemma StepAccountsLocal(s: State, a: Action)
    ensures Logged(Step(s, a).state.local) == Logged(s.local) + Records(LocalEntryBy(a))
  {
    if a.Emit? {
      var e := Entry(a.event.log, a.localTime);
      LocalLogAppendsOne(s.local, e.msg, e.time);
      assert Records([e]) == [Record(e)];
    }
  }

  /** The local log loses and duplicates nothing: the file followed by the backlog grows by
      exactly one record per emitted event, in emission order. */
  lemma {:induction false} RunAccountsLocal(s: State, steps: seq<Action>)
    ensures Logged(Run(s, steps).state.local) == Logged(s.local) + Records(LocalEntries(steps))
    decreases |steps|
  {
    if |steps| > 0 {
      var init := steps[..|steps| - 1];
      var last := steps[|steps| - 1];
      RunAccountsLocal(s, init);
      var prev := Run(s, init);
      var o := Step(prev.state, last);
      assert Run(s, steps).state == o.state;
      StepAccountsLocal(prev.state, last);
      assert LocalEntries(steps) == LocalEntries(init) + LocalEntryBy(last);
      RecordsAppend(LocalEntries(init), LocalEntryBy(last));
      assert Logged(o.state.local)
          == (Logged(s.local) + Records(LocalEntries(init))) + Records(LocalEntryBy(last));
    }
  }

  /** With remote shipping off nothing is ever shipped and the buffer keeps every event. */
  lemma {:induction false} RemoteOffKeepsEverything(s: State, steps: seq<Action>)
    requires Inv(s) && !s.ship.doRemote
    ensures var o := Run(s, steps);
            o.accepted == [] && o.state.ship.cache == s.ship.cache + Emitted(steps)
    decreases |steps|
  {
    if |steps| > 0 {
      RemoteOffKeepsEverything(s, steps[..|steps| - 1]);
      RunKeepsInvariant(s, steps[..|steps| - 1]);
    }
    RunAccountsBuffer(s, steps);
  }

  /** Once a run id exists and the backlog has been flushed, every later `localLog` call
      writes straight to the file, so the backlog stays empty. */
  lemma {:induction false} FlushedRunKeepsNoBacklog(s: State, steps: seq<Action>)
    requires s.local.runTime != "" && s.local.backlog == []
    ensures Run(s, steps).state.local.backlog == []
    ensures Run(s, steps).state.local.runTime == s.local.runTime
    decreases |steps|
  {
    if |steps| > 0 {
      FlushedRunKeepsNoBacklog(s, steps[..|steps| - 1]);
    }
  }

  /** After a setup with remote shipping off, whatever happens: nothing is shipped, the
      buffer holds exactly the emitted events, and the run's log file holds exactly their
      records, in emission order, with nothing left in the backlog. */
  lemma RemoteOffRunAfterSetup(loaded: PourConfig, timestamp: string, steps: seq<Action>)
    requires !loaded.remoteLogs && timestamp != ""
    ensures var o := Run(Boot(loaded, timestamp, [], []).state, steps);
            && o.accepted == []
            && o.state.ship.cache == Emitted(steps)
            && o.state.local.backlog == []
            && o.state.local.file == Records(LocalEntries(steps))
  {
    var s := Boot(loaded, timestamp, [], []).state;
    assert s.local.runTime != "";
    RemoteOffKeepsEverything(s, steps);
    RunAccountsLocal(s, steps);
    FlushedRunKeepsNoBacklog(s, steps);
    var t := Run(s, steps).state;
    assert [] + Emitted(steps) == Emitted(steps);
    assert Logged(s.local) == [];
    assert [] + Records(LocalEntries(steps)) == Records(LocalEntries(steps));
    assert Logged(t.local) == t.local.file + [];
  }

}

=== FILE: shipment.dfy ===
/**
  The remote shipment step: one iteration of `logLoop` and the `remoteLog`
  call it makes. The package globals it touches (`cache.items`,
  `errorLogAmount`, `doRemote`) form `ShipState`; diagnostics the failure
  paths log are returned instead of being fed back into the buffer.
 */
module Shipment {
  import opened Wrappers
  import opened Text
  import opened Tags
  import opened Events
  import opened Transport

  /** `MAX_LOG_ERRORS`. */
  const MaxLogErrors: nat := 2

  /** The counter value `remoteLog` must exceed before it disables remote shipping. */
  const DisableCeiling: nat := 10

  const DisableMessage: string := "unsuccessfully re-tried remote logging 10 times, disabling remote.."

  datatype ShipState = ShipState(cache: seq<LogEvent>, errorLogAmount: nat, doRemote: bool)

  /** The state after a step, the batch the collector accepted (empty unless it answered
      202), the diagnostics logged, and whether the step panicked. */
  datatype ShipResult = ShipResult(state: ShipState, accepted: seq<LogEvent>, notes: seq<Diagnostic>, panicked: bool)

  /** The counter invariant the constants imply. */
  predicate Bounded(s: ShipState) {
    s.errorLogAmount <= MaxLogErrors
  }

  /** The diagnostic `remoteLog` logs for a failed attempt: a red note of two words, a
      heading and the error, or for a refusal the body read (its status when unreadable). */
  function LogFailureNote(v: Verdict): (d: Diagnostic)
    requires IsFailure(v)
    ensures d.ColoredNote? && d.color == Red && |d.words| == 2
    ensures v.MarshalError? || v.RequestError? || v.TransportError? ==> d.words[1] == v.err
    ensures v.Rejected? ==> d.words == ["Error logging", if v.body.Some? then v.body.value else IntToString(v.code)]
  {
    match v
    case MarshalError(err) => ColoredNote(Red, ["Error marshalling logs", err])
    case RequestError(err) => ColoredNote(Red, ["Error marshalling logs", err])
    case TransportError(err) => ColoredNote(Red, ["Error transmitting logs", err])
    case Rejected(code, body, _) =>
      ColoredNote(Red, ["Error logging", if body.Some? then body.value else IntToString(code)])
  }

  /** What `remoteLog` does with a verdict once past its ceiling check; `sent` is the batch
      the request body carried. Acceptance clears the buffer and reports the batch sent; a
      failure keeps the buffer and charges the counter, with one note per charge. */
  function ApplyLogVerdict(s: ShipState, v: Verdict, sent: seq<LogEvent>): (r: ShipResult)
    ensures r.panicked <==> v.NilRequestPanic?
    ensures v.Accepted? ==> r.state.cache == [] && r.accepted == sent
    ensures !v.Accepted? ==> r.state.cache == s.cache && r.accepted == []
    ensures r.state.errorLogAmount == s.errorLogAmount + 1 <==> IsFailure(v) && s.errorLogAmount < MaxLogErrors
    ensures r.state.errorLogAmount == s.errorLogAmount || r.state.errorLogAmount == s.errorLogAmount + 1
    ensures |r.notes| == r.state.errorLogAmount - s.errorLogAmount
    ensures r.state.doRemote == s.doRemote
  {
    if v.Accepted? then ShipResult(s.(cache := []), sent, [], false)
    else if v.NilRequestPanic? then ShipResult(s, [], [], true)
    else
      ShipResult(
        s.(errorLogAmount := Charge(s.errorLogAmount, MaxLogErrors)),
        [],
        if s.errorLogAmount < MaxLogErrors then [LogFailureNote(v)] else [],
        false)
  }

  /** As written, serialising fails at the cap, the code sends the empty body anyway, and the
      collector's 202 clears the buffer: its events are dropped without being sent. */
  predicate BufferLost(s: ShipState, a: Attempt) {
    MaxLogErrors <= s.errorLogAmount <= DisableCeiling
    && a.marshal.Failed? && a.request.Done? && a.response.Status? && a.response.code == StatusAccepted
  }

  /** The ceiling branch of `remoteLog`: report once through `LogErr` and stop shipping. */
  function Disable(s: ShipState): (r: ShipResult)
    ensures !r.state.doRemote && !r.panicked && r.accepted == []
    ensures r.state.cache == s.cache && r.state.errorLogAmount == s.errorLogAmount
    ensures r.notes == [ErrorNote([DisableMessage])]
  {
    ShipResult(s.(doRemote := false), [], [ErrorNote([DisableMessage])], false)
  }

  /** `remoteLog(cache.items, ...)` as written. */
  function RemoteLogAsWritten(s: ShipState, a: Attempt): (r: ShipResult)
    ensures r.panicked <==> MaxLogErrors <= s.errorLogAmount <= DisableCeiling && a.request.Failed?
    ensures r.panicked ==> r.state == s
    ensures !r.panicked ==> r.state.cache == s.cache || r.state.cache == []
    ensures !r.panicked && !BufferLost(s, a) ==> r.accepted + r.state.cache == s.cache
    ensures BufferLost(s, a) ==> r.state.cache == [] && r.accepted == []
    ensures |s.cache| > 0 ==>
              (r.state.cache == [] <==>
                 s.errorLogAmount <= DisableCeiling && (a.marshal.Done? || MaxLogErrors <= s.errorLogAmount)
                 && a.request.Done? && a.response.Status? && a.response.code == StatusAccepted)
    ensures s.errorLogAmount <= r.state.errorLogAmount <= s.errorLogAmount + 1
    ensures r.state.errorLogAmount == s.errorLogAmount + 1
            <==> s.errorLogAmount < MaxLogErrors && !Delivered(a)
    ensures Bounded(s) ==> Bounded(r.state) && r.state.doRemote == s.doRemote
  {
    if s.errorLogAmount > DisableCeiling then Disable(s)
    else ApplyLogVerdict(s, Classify(s.errorLogAmount, MaxLogErrors, a), if a.marshal.Done? then s.cache else [])
  }

  /** `remoteLog` with the request guard corrected (any stage error ends the attempt). */
  function RemoteLog(s: ShipState, a: Attempt): (r: ShipResult)
    ensures !r.panicked
    ensures r.accepted + r.state.cache == s.cache
    ensures s.errorLogAmount <= DisableCeiling && Delivered(a) ==> r.state.cache == [] && r.accepted == s.cache
    ensures |s.cache| > 0 ==> (r.state.cache == [] <==> s.errorLogAmount <= DisableCeiling && Delivered(a))
    ensures !(s.errorLogAmount <= DisableCeiling && Delivered(a)) ==> r.state.cache == s.cache
    ensures s.errorLogAmount <= r.state.errorLogAmount <= s.errorLogAmount + 1
    ensures r.state.errorLogAmount == s.errorLogAmount + 1
            <==> s.errorLogAmount < MaxLogErrors && !Delivered(a)
    ensures Bounded(s) ==> Bounded(r.state) && r.state.doRemote == s.doRemote
  {
    if s.errorLogAmount > DisableCeiling then Disable(s)
    else ApplyLogVerdict(s, ClassifyFixed(a), s.cache)
  }

  /** Below the cap, or when the body and the request were both built, the code as written
      does exactly what the corrected step does, so every property of `RemoteLog` holds of
      it there. */
  lemma RemoteLogAgrees(s: ShipState, a: Attempt)
    requires s.errorLogAmount < MaxLogErrors || (a.marshal.Done? && a.request.Done?)
    ensures RemoteLogAsWritten(s, a) == RemoteLog(s, a)
  {
    ClassifyAgreesUnlessStageFailsAtCap(s.errorLogAmount, MaxLogErrors, a);
  }

  /** One iteration of `logLoop`: ship only when remote shipping is on and the buffer holds
      something. */
  function LogLoopTick(s: ShipState, a: Attempt): (r: ShipResult)
    ensures !(s.doRemote && |s.cache| > 0) ==> r == ShipResult(s, [], [], false)
    ensures r.accepted + r.state.cache == s.cache
    ensures r.accepted != [] <==> s.doRemote && |s.cache| > 0 && s.errorLogAmount <= DisableCeiling && Delivered(a)
    ensures Bounded(s) ==> Bounded(r.state) && r.state.doRemote == s.doRemote
    ensures s.errorLogAmount <= r.state.errorLogAmount
  {
    if s.doRemote && |s.cache| > 0 then RemoteLog(s, a) else ShipResult(s, [], [], false)
  }

  /** The same iteration with `remoteLog` as written. */
  function LogLoopTickAsWritten(s: ShipState, a: Attempt): (r: ShipResult)
    ensures !(s.doRemote && |s.cache| > 0) ==> r == ShipResult(s, [], [], false)
    ensures Bounded(s) ==> Bounded(r.state) && r.state.doRemote == s.doRemote
    ensures s.errorLogAmount <= r.state.errorLogAmount
  {
    if s.doRemote && |s.cache| > 0 then RemoteLogAsWritten(s, a) else ShipResult(s, [], [], false)
  }

  /** Whatever the attempts, a run of iterations of the code as written keeps the counter at or below its cap,
      never lowers it, and never disables shipping: with a cap of 2 the ceiling of 10 is out
      of reach. */
  lemma {:induction false} TicksNeverDisable(s: ShipState, attempts: seq<Attempt>)
    requires Bounded(s)
    ensures var r := TickAll(s, attempts);
            && Bounded(r)
            && s.errorLogAmount <= r.errorLogAmount
            && r.doRemote == s.doRemote
    decreases |attempts|
  {
    if |attempts| > 0 {
      TicksNeverDisable(s, attempts[..|attempts| - 1]);
    }
  }

  /** A run of `logLoop` iterations as written, with no events arriving in between; a
      panicking iteration leaves the state as it was. */
  function TickAll(s: ShipState, attempts: seq<Attempt>): ShipState
    decreases |attempts|
  {
    if |attempts| == 0 then s
    else LogLoopTickAsWritten(TickAll(s, attempts[..|attempts| - 1]), attempts[|attempts| - 1]).state
  }

  /** As written, the shipment step panics once two failures have been counted and a request
      cannot be built (an unparsable host makes every request fail that way). */
  lemma RemoteLogAsWrittenPanics(cache: seq<LogEvent>)
    requires |cache| > 0
    ensures var s := ShipState(cache, MaxLogErrors, true);
            var a := Attempt(Done, Failed("invalid character \" \" in host name"), NoResponse(""));
            LogLoopTickAsWritten(s, a).panicked
  {
  }

  /** Corrected, no state and no attempt makes the shipment step panic, and a request that
      cannot be built leaves the buffer in place. */
  lemma RemoteLogNeverPanics(s: ShipState, a: Attempt)
    ensures !LogLoopTick(s, a).panicked
    ensures a.request.Failed? ==> LogLoopTick(s, a).state.cache == s.cache
  {
  }

  /** As written, once two failures have been counted a serialisation error still sends the
      empty body; the collector's 202 then clears the buffer, and its events are gone
      without having been shipped. Corrected, the same attempt keeps them. */
  lemma RemoteLogAsWrittenDropsBuffer(cache: seq<LogEvent>)
    requires |cache| > 0
    ensures var s := ShipState(cache, MaxLogErrors, true);
            var a := Attempt(Failed("json: unsupported value"), Done, Status(202, Some(""), ""));
            var r := LogLoopTickAsWritten(s, a);
            && !r.panicked && r.state.cache == [] && r.accepted == []
            && LogLoopTick(s, a).state.cache == cache
  {
  }

}

=== FILE: tags.dfy ===
/**
  The tag catalog (`tags`, `fillDefaultTags`) and the console colours of
  `LogTagged`: out-of-range tag ids fall back to the first entry, and the
  tag id chooses the colour through a fixed switch.
 */
module Tags {

  /** `ModelLogTag`: the zero value (id 0, empty colour and name) is what untagged events carry. */
  datatype Tag = Tag(id: nat, color: string, name: string)

  const TagSuccess: nat := 1
  const TagWarning: nat := 2
  const TagError: nat := 3

  const ZeroTag: Tag := Tag(0, "", "")

  /** The catalog `fillDefaultTags` installs during setup. */
  function DefaultTags(): (tags: seq<Tag>)
    ensures |tags| == 3
    ensures forall i :: 0 <= i < |tags| ==> tags[i].id == i + 1
  {
    [ Tag(TagSuccess, "#1c9c3e", "Success"),
      Tag(TagWarning, "#c2a525", "Warning"),
      Tag(TagError, "#9c1f1f", "Error") ]
  }

  /** The id `LogTagged` resolves: 0 (the only `uint` that is `<= 0`) and ids past the
      catalog become 1; every other id is kept. */
  function NormalizeTag(tag: nat, catalogSize: nat): (r: nat)
    ensures 1 <= r
    ensures catalogSize >= 1 ==> r <= catalogSize
    ensures 1 <= tag <= catalogSize ==> r == tag
    ensures tag == 0 || tag > catalogSize ==> r == 1
  {
    if tag <= 0 || tag > catalogSize then 1 else tag
  }

  /** The ANSI colours the package declares. */
  datatype Color = Reset | Green | Yellow | Blue | Purple | Cyan | White | Red

  const Escape: char := 27 as char

  /** The escape sequence printed for a colour (`ColorGreen` is ESC "[32m", and so on). */
  function Code(c: Color): (s: string)
    ensures |s| >= 4 && s[0] == Escape && s[|s| - 1] == 'm'
  {
    match c
    case Reset => [Escape] + "[0m"
    case Green => [Escape] + "[32m"
    case Yellow => [Escape] + "[33m"
    case Blue => [Escape] + "[34m"
    case Purple => [Escape] + "[35m"
    case Cyan => [Escape] + "[36m"
    case White => [Escape] + "[37m"
    case Red => [Escape] + "[31m"
  }

  /** The colour switch of `LogTagged`: red, green and yellow for the three catalog ids,
      white for anything else; no other colour is ever chosen. */
  function TagColor(tag: nat): (c: Color)
    ensures c == Red <==> tag == TagError
    ensures c == Green <==> tag == TagSuccess
    ensures c == Yellow <==> tag == TagWarning
    ensures c == White <==> !(1 <= tag <= 3)
  {
    if tag == TagError then Red
    else if tag == TagSuccess then Green
    else if tag == TagWarning then Yellow
    else White
  }

  /** With the default catalog every id resolves to an entry whose own id is the resolved id,
      so `tags[tag-1]` is in range; ids outside 1..3 resolve to the Success entry. */
  lemma ResolvedTagInCatalog(tag: nat)
    ensures var r := NormalizeTag(tag, |DefaultTags()|);
            && 1 <= r <= |DefaultTags()|
            && DefaultTags()[r - 1].id == r
            && (tag == 0 || tag > 3 ==> DefaultTags()[r - 1].name == "Success")
            && (1 <= tag <= 3 ==> DefaultTags()[r - 1].id == tag)
  {
  }

  /** Normalising an already normalised id changes nothing. */
  lemma NormalizeIdempotent(tag: nat, catalogSize: nat)
    requires catalogSize >= 1
    ensures NormalizeTag(NormalizeTag(tag, catalogSize), catalogSize) == NormalizeTag(tag, catalogSize)
  {
  }

  /** With the default catalog the colour of a resolved tag is the one its name suggests
      (Success green, Warning yellow, Error red), and the White fallback is never taken. */
  lemma ColorFollowsCatalogName(tag: nat)
    ensures var r := NormalizeTag(tag, |DefaultTags()|);
            var entry := DefaultTags()[r - 1];
            && (TagColor(r) == Green <==> entry.name == "Success")
            && (TagColor(r) == Yellow <==> entry.name == "Warning")
            && (TagColor(r) == Red <==> entry.name == "Error")
            && TagColor(r) != White
  {
  }

}

=== FILE: text.dfy ===
/**
  String helpers the client relies on from Go's standard library:
  `strings.Split` with a one-character separator, the "each piece followed
  by a separator" concatenation the formatting loops build, `fmt.Sprint`
  of an integer, and `strings.ReplaceAll` of one character by another.
 */
module Text {
  import opened Wrappers

  /** No element of `parts` contains `sep`. */
  predicate Free(parts: seq<string>, sep: char) {
    forall i :: 0 <= i < |parts| ==> sep !in parts[i]
  }

  /** `strings.Split(s, string(sep))`: the maximal `sep`-free pieces of `s`, in order.
      Like Go's version it never returns an empty list, even for the empty string. */
  function Split(s: string, sep: char): (parts: seq<string>)
    ensures |parts| >= 1
    ensures Free(parts, sep)
    decreases |s|
  {
    if |s| == 0 then [""]
    else
      var rest := Split(s[1..], sep);
      if s[0] == sep then [""] + rest
      else [[s[0]] + rest[0]] + rest[1..]
  }

  /** `strings.Join(parts, string(sep))` for a non-empty list. */
  function Join(parts: seq<string>, sep: char): string
    requires |parts| >= 1
    decreases |parts|
  {
    if |parts| == 1 then parts[0] else parts[0] + [sep] + Join(parts[1..], sep)
  }

  /** Every piece followed by one `sep`: what `for _, e := range args { str += e + " " }` builds. */
  function Terminated(parts: seq<string>, sep: char): string
    decreases |parts|
  {
    if |parts| == 0 then ""
    else Terminated(parts[..|parts| - 1], sep) + parts[|parts| - 1] + [sep]
  }

  /** The last element of `strings.Split(path, "/")`, the file's base name. */
  function Basename(path: string): string {
    var parts := Split(path, '/');
    parts[|parts| - 1]
  }

  /** Joining the pieces of a split gives the original string back. */
  lemma {:induction false} JoinSplit(s: string, sep: char)
    ensures Join(Split(s, sep), sep) == s
    decreases |s|
  {
    if |s| > 0 {
      JoinSplit(s[1..], sep);
      var rest := Split(s[1..], sep);
      if s[0] == sep {
        assert Split(s, sep) == [""] + rest;
        assert ([""] + rest)[1..] == rest;
      } else {
        var parts := Split(s, sep);
        assert parts == [[s[0]] + rest[0]] + rest[1..];
        if |rest| == 1 {
          assert parts == [[s[0]] + rest[0]];
        } else {
          assert parts[1..] == rest[1..];
          assert Join(rest, sep) == rest[0] + [sep] + Join(rest[1..], sep);
        }
        assert s == [s[0]] + s[1..];
      }
    }
  }

  /** Splitting `a + t` where `a` holds no separator glues `a` onto the first piece of `t`. */
  lemma {:induction false} SplitFreePrefix(a: string, t: string, sep: char)
    requires sep !in a
    ensures Split(a + t, sep) == [a + Split(t, sep)[0]] + Split(t, sep)[1..]
    decreases |a|
  {
    if |a| == 0 {
      assert a + t == t;
      var x := Split(t, sep);
      assert a + x[0] == x[0];
      assert x == [x[0]] + x[1..];
    } else {
      SplitFreePrefix(a[1..], t, sep);
      var x := Split(t, sep);
      var rest := Split(a[1..] + t, sep);
      assert (a + t)[1..] == a[1..] + t;
      assert (a + t)[0] == a[0] && a[0] != sep;
      assert rest == [a[1..] + x[0]] + x[1..];
      assert Split(a + t, sep) == [[a[0]] + rest[0]] + rest[1..];
      assert rest[1..] == x[1..];
      assert a == [a[0]] + a[1..];
      assert [a[0]] + rest[0] == a + x[0];
    }
  }

  /** Splitting a join of separator-free pieces gives the pieces back. */
  lemma {:induction false} SplitJoin(parts: seq<string>, sep: char)
    requires |parts| >= 1
    requires Free(parts, sep)
    ensures Split(Join(parts, sep), sep) == parts
    decreases |parts|
  {
    if |parts| == 1 {
      SplitFreePrefix(parts[0], "", sep);
      assert parts[0] + "" == parts[0];
    } else {
      var tail := Join(parts[1..], sep);
      SplitJoin(parts[1..], sep);
      assert Join(parts, sep) == parts[0] + ([sep] + tail);
      SplitFreePrefix(parts[0], [sep] + tail, sep);
      assert ([sep] + tail)[1..] == tail;
      assert ([sep] + tail)[0] == sep;
      assert Split([sep] + tail, sep) == [""] + Split(tail, sep);
      var y := Split([sep] + tail, sep);
      assert y == [""] + parts[1..];
      assert y[0] == "" && y[1..] == parts[1..];
      assert Split(parts[0] + ([sep] + tail), sep) == [parts[0] + y[0]] + y[1..];
      assert Split(Join(parts, sep), sep) == [parts[0] + ""] + parts[1..];
      assert parts[0] + "" == parts[0];
      assert parts == [parts[0]] + parts[1..];
    }
  }

  /** Appending a piece to a join adds one separator. */
  lemma {:induction false} JoinSnoc(parts: seq<string>, x: string, sep: char)
    requires |parts| >= 1
    ensures Join(parts + [x], sep) == Join(parts, sep) + [sep] + x
    decreases |parts|
  {
    if |parts| == 1 {
      assert (parts + [x])[1..] == [x];
    } else {
      JoinSnoc(parts[1..], x, sep);
      assert (parts + [x])[1..] == parts[1..] + [x];
    }
  }

  /** A terminated list is the join of the list with one empty piece at the end. */
  lemma {:induction false} TerminatedIsJoin(parts: seq<string>, sep: char)
    ensures Terminated(parts, sep) == Join(parts + [""], sep)
    decreases |parts|
  {
    if |parts| == 0 {
      assert parts + [""] == [""];
    } else {
      var init := parts[..|parts| - 1];
      var x := parts[|parts| - 1];
      assert parts == init + [x];
      TerminatedIsJoin(init, sep);
      if |init| == 0 {
        assert parts + [""] == [x, ""];
        assert Join([x, ""], sep) == x + [sep] + Join([""], sep);
      } else {
        JoinSnoc(init, "", sep);
        JoinSnoc(init, x, sep);
        JoinSnoc(init + [x], "", sep);
        assert parts + [""] == (init + [x]) + [""];
      }
    }
  }

  /** Splitting a terminated list of separator-free pieces gives the pieces and one trailing empty piece. */
  lemma SplitTerminated(parts: seq<string>, sep: char)
    requires Free(parts, sep)
    ensures Split(Terminated(parts, sep), sep) == parts + [""]
  {
    TerminatedIsJoin(parts, sep);
    assert Free(parts + [""], sep) by {
      forall i | 0 <= i < |parts + [""]|
        ensures sep !in (parts + [""])[i]
      {
        if i < |parts| { assert (parts + [""])[i] == parts[i]; }
      }
    }
    SplitJoin(parts + [""], sep);
  }

  /** A one-piece terminated list is the piece and the separator. */
  lemma TerminatedSingle(x: string, sep: char)
    ensures Terminated([x], sep) == x + [sep]
  {
    assert [x][..0] == [];
  }

  /** A character absent from every piece and different from the separator is absent from
      the terminated list. */
  lemma {:induction false} TerminatedAvoids(parts: seq<string>, sep: char, c: char)
    requires c != sep
    requires forall i :: 0 <= i < |parts| ==> c !in parts[i]
    ensures c !in Terminated(parts, sep)
    decreases |parts|
  {
    if |parts| > 0 {
      TerminatedAvoids(parts[..|parts| - 1], sep, c);
    }
  }

  /** A join starts with its first piece. */
  lemma JoinHead(items: seq<string>, sep: char)
    requires |items| >= 1
    ensures |items[0]| <= |Join(items, sep)| && Join(items, sep)[..|items[0]|] == items[0]
  {
  }

  /** Terminating a concatenation terminates each half. */
  lemma {:induction false} TerminatedAppend(a: seq<string>, b: seq<string>, sep: char)
    ensures Terminated(a + b, sep) == Terminated(a, sep) + Terminated(b, sep)
    decreases |b|
  {
    if |b| == 0 {
      assert a + b == a;
    } else {
      var init := b[..|b| - 1];
      TerminatedAppend(a, init, sep);
      assert (a + b)[..|a + b| - 1] == a + init;
      assert (a + b)[|a + b| - 1] == b[|b| - 1];
    }
  }

  /** The last piece of a split is the part of `s` after its last separator, or all of `s`
      when there is none. */
  lemma LastPieceIsSuffix(s: string, sep: char)
    ensures var parts := Split(s, sep);
            var last := parts[|parts| - 1];
            && |last| <= |s|
            && s[|s| - |last|..] == last
            && (|parts| == 1 ==> last == s)
            && (|parts| >= 2 ==> |last| < |s| && s[|s| - |last| - 1] == sep)
  {
    var parts := Split(s, sep);
    var last := parts[|parts| - 1];
    JoinSplit(s, sep);
    if |parts| >= 2 {
      var init := parts[..|parts| - 1];
      assert parts == init + [last];
      JoinSnoc(init, last, sep);
      var front := Join(init, sep) + [sep];
      assert s == front + last;
      assert s[|s| - |last|..] == last;
      assert s[|s| - |last| - 1] == front[|front| - 1];
    }
  }

  lemma BasenameIsLastSegment(path: string)
    ensures var b := Basename(path);
            && '/' !in b
            && |b| <= |path|
            && path[|path| - |b|..] == b
            && (|b| == |path| || path[|path| - |b| - 1] == '/')
  {
    LastPieceIsSuffix(path, '/');
  }

  predicate IsDigit(c: char) {
    '0' <= c <= '9'
  }

  predicate AllDigits(s: string) {
    forall i :: 0 <= i < |s| ==> IsDigit(s[i])
  }

  function DigitChar(d: nat): (c: char)
    requires d < 10
    ensures IsDigit(c)
  {
    ('0' as int + d) as char
  }

  function DigitValue(c: char): nat
    requires IsDigit(c)
  {
    c as int - '0' as int
  }

  /** Decimal digits of `n` without leading zeros, as `fmt.Sprint` prints a non-negative integer. */
  function NatToString(n: nat): (s: string)
    ensures |s| >= 1 && AllDigits(s)
    decreases n
  {
    if n < 10 then [DigitChar(n)] else NatToString(n / 10) + [DigitChar(n % 10)]
  }

  /** `fmt.Sprint` of an integer: an optional minus sign and decimal digits. */
  function IntToString(i: int): (s: string)
    ensures |s| >= 1
    ensures forall k :: 0 <= k < |s| ==> s[k] == '-' || IsDigit(s[k])
  {
    if i < 0 then "-" + NatToString(-i) else NatToString(i)
  }

  function ParseNat(s: string): nat
    requires AllDigits(s)
    decreases |s|
  {
    if |s| == 0 then 0 else ParseNat(s[..|s| - 1]) * 10 + DigitValue(s[|s| - 1])
  }

  /** Reads back what `IntToString` prints; `None` for anything else. */
  function ParseInt(s: string): Option<int> {
    if |s| > 0 && s[0] == '-' then
      if |s| > 1 && AllDigits(s[1..]) then Some(0 - ParseNat(s[1..]) as int) else None
    else if |s| > 0 && AllDigits(s) then Some(ParseNat(s))
    else None
  }

  lemma {:induction false} ParseNatToString(n: nat)
    ensures ParseNat(NatToString(n)) == n
    decreases n
  {
    if n >= 10 {
      ParseNatToString(n / 10);
      var s := NatToString(n);
      assert s[..|s| - 1] == NatToString(n / 10);
    }
  }

  /** Printing an integer and parsing it back is the identity. */
  lemma ParseIntToString(i: int)
    ensures ParseInt(IntToString(i)) == Some(i)
  {
    if i < 0 {
      ParseNatToString(-i);
      assert IntToString(i)[1..] == NatToString(-i);
    } else {
      ParseNatToString(i);
    }
  }

  /** `strings.ReplaceAll(s, string(from), string(to))` for single characters. */
  function ReplaceChar(s: string, from: char, to: char): (r: string)
    ensures |r| == |s|
    ensures forall i :: 0 <= i < |s| ==> r[i] == (if s[i] == from then to else s[i])
    decreases |s|
  {
    if |s| == 0 then ""
    else [if s[0] == from then to else s[0]] + ReplaceChar(s[1..], from, to)
  }

  /** `strings.Contains(s, sub)`. */
  predicate Contains(s: string, sub: string)
    decreases |s|
  {
    (|sub| <= |s| && s[..|sub|] == sub) || (|s| > 0 && Contains(s[1..], sub))
  }

  /** A string contains each of its suffixes. */
  lemma {:induction false} ContainsSuffix(s: string, sub: string)
    requires |sub| <= |s| && s[|s| - |sub|..] == sub
    ensures Contains(s, sub)
    decreases |s|
  {
    if |s| > |sub| {
      assert s[1..][|s| - 1 - |sub|..] == sub;
      ContainsSuffix(s[1..], sub);
    } else {
      assert s[..|sub|] == s[|s| - |sub|..];
    }
  }


  /** The position of the first `c` in `s`, or `|s|` when there is none. */
  function IndexOf(s: string, c: char): (k: nat)
    ensures k <= |s|
    ensures forall i :: 0 <= i < k ==> s[i] != c
    ensures k < |s| ==> s[k] == c
    decreases |s|
  {
    if |s| == 0 then 0
    else if s[0] == c then 0
    else 1 + IndexOf(s[1..], c)
  }

  /** In `a + [c] + t` with no `c` in `a`, the first `c` is the one right after `a`. */
  lemma IndexAfterFreePrefix(a: string, c: char, t: string)
    requires c !in a
    ensures IndexOf(a + [c] + t, c) == |a|
  {
    var s := a + [c] + t;
    var k := IndexOf(s, c);
    assert s[|a|] == c;
    assert forall i :: 0 <= i < |a| ==> s[i] == a[i];
  }

}

=== FILE: transport.dfy ===
/**
  The transport side shared by `remoteLog` and `sendHardwareUsage`: the
  collector URLs, the outcome of one shipment attempt, how the code turns
  that outcome into a verdict, and the bounded failure counter.

  The HTTP client and `json.Marshal` are not modelled; an attempt is the
  outcome of each of its three stages (serialise, build the request,
  send it), as the environment would produce them.
 */
module Transport {
  import opened Wrappers
  import opened Text

  /** `http.StatusAccepted`, the collector's only success status. */
  const StatusAccepted: int := 202

  /** The scheme `remoteLog` and `sendHardwareUsage` put in front of the host. */
  function Prefix(useTLS: bool): string {
    if useTLS then "https://" else "http://"
  }

  /** The log endpoint: `remoteLog` prints the port it got as a `uint`. */
  function LogsUrl(useTLS: bool, host: string, port: nat): (url: string)
    ensures Prefix(useTLS) <= url
    ensures |url| >= 5 && url[|url| - 5..] == "/logs"
  {
    Prefix(useTLS) + host + ":" + NatToString(port) + "/logs"
  }

  /** The hardware endpoint: `sendHardwareUsage` prints the configured `int` port. */
  function HardwareUrl(useTLS: bool, host: string, port: int): (url: string)
    ensures Prefix(useTLS) <= url
    ensures |url| >= 23 && url[|url| - 23..] == "/logs/projects/hardware"
  {
    Prefix(useTLS) + host + ":" + IntToString(port) + "/logs/projects/hardware"
  }

  /** A URL is secure exactly when TLS is on: it then starts with "https://", and with
      "http://" exactly when TLS is off. */
  lemma UrlSchemeFollowsTls(useTLS: bool, host: string, port: nat)
    ensures var url := LogsUrl(useTLS, host, port);
            && (|url| >= 8 && url[..8] == "https://" <==> useTLS)
            && (url[..7] == "http://" <==> !useTLS)
  {
    var url := LogsUrl(useTLS, host, port);
    assert url[..|Prefix(useTLS)|] == Prefix(useTLS);
    if useTLS {
      assert url[..8] == "https://";
      assert url[..7][4] == 's';
    } else {
      assert url[..7] == "http://";
      assert url[4] == ':';
    }
  }

  lemma JoinThree(a: string, b: string, c: string, sep: char)
    ensures Join([a, b, c], sep) == a + [sep] + b + [sep] + c
  {
    assert [a, b, c][1..] == [b, c];
    assert [b, c][1..] == [c];
    assert Join([c], sep) == c;
    assert Join([b, c], sep) == b + [sep] + c;
    assert Join([a, b, c], sep) == a + [sep] + (b + [sep] + c);
  }

  /** The log URL is its scheme, `//host` and `port/logs` joined by ':'. */
  lemma LogsUrlIsJoin(useTLS: bool, host: string, port: nat)
    ensures LogsUrl(useTLS, host, port)
            == Join([if useTLS then "https" else "http", "//" + host, NatToString(port) + "/logs"], ':')
  {
    var scheme := if useTLS then "https" else "http";
    var p := NatToString(port);
    JoinThree(scheme, "//" + host, p + "/logs", ':');
    assert Prefix(useTLS) == scheme + ":" + "//";
    assert LogsUrl(useTLS, host, port) == Prefix(useTLS) + host + ":" + p + "/logs";
    assert scheme + [':'] + ("//" + host) + [':'] + (p + "/logs")
           == (scheme + ":" + "//") + host + ":" + p + "/logs";
  }

  /** The log URL splits on ':' into the scheme, `//host`, and `port/logs`, and the port
      reads back, so scheme, host and port are all recoverable from it. */
  lemma LogsUrlSplits(useTLS: bool, host: string, port: nat)
    requires ':' !in host
    ensures var parts := Split(LogsUrl(useTLS, host, port), ':');
            && parts == [if useTLS then "https" else "http", "//" + host, NatToString(port) + "/logs"]
            && ParseInt(parts[2][..|parts[2]| - 5]) == Some(port)
  {
    var p := NatToString(port);
    var parts := [if useTLS then "https" else "http", "//" + host, p + "/logs"];
    LogsUrlIsJoin(useTLS, host, port);
    assert ':' !in p;
    assert Free(parts, ':');
    SplitJoin(parts, ':');
    assert parts[2][..|parts[2]| - 5] == p;
    ParseIntToString(port);
  }

  lemma HardwarePathExtendsLogsPath(front: string)
    ensures front + "/logs/projects/hardware" == (front + "/logs") + "/projects/hardware"
  {
    assert "/logs/projects/hardware" == "/logs" + "/projects/hardware";
  }

  /** For a non-negative port the hardware endpoint sits under the log endpoint. */
  lemma HardwareUrlExtendsLogsUrl(useTLS: bool, host: string, port: int)
    requires port >= 0
    ensures HardwareUrl(useTLS, host, port) == LogsUrl(useTLS, host, port) + "/projects/hardware"
  {
    var front := Prefix(useTLS) + host + ":" + NatToString(port);
    HardwarePathExtendsLogsPath(front);
  }

  /** How one stage of an attempt ended. */
  datatype Stage = Done | Failed(err: string)

  /** What `client.Do` returned: an error, or a status with the body as read (`None` when
      reading it failed) and the text `fmt.Sprint` gives for the response. */
  datatype Response = NoResponse(err: string) | Status(code: int, body: Option<string>, printed: string)

  /** The outcome of each stage of one shipment attempt. */
  datatype Attempt = Attempt(marshal: Stage, request: Stage, response: Response)

  /** Where the shipment code ends up for an attempt. */
  datatype Verdict =
    | MarshalError(err: string)
    | RequestError(err: string)
    | NilRequestPanic
    | TransportError(err: string)
    | Accepted
    | Rejected(code: int, body: Option<string>, printed: string)

  /** Everything but acceptance and the panic is a failure the counter is charged for. */
  predicate IsFailure(v: Verdict) {
    !v.Accepted? && !v.NilRequestPanic?
  }

  /** Every stage went through and the collector answered 202. */
  predicate Delivered(a: Attempt) {
    a.marshal.Done? && a.request.Done? && a.response.Status? && a.response.code == StatusAccepted
  }

  function ResponseVerdict(r: Response): Verdict {
    match r
    case NoResponse(err) => TransportError(err)
    case Status(code, body, printed) => if code == StatusAccepted then Accepted else Rejected(code, body, printed)
  }

  /** The verdict as the code is written. The early returns on a marshal or request error
      are guarded by `counter < max`, so at the cap a marshal error falls through to
      sending an empty body, and a request error falls through to `req.Header` on a nil
      request, which panics. */
  function Classify(counter: nat, max: nat, a: Attempt): (v: Verdict)
    ensures v == NilRequestPanic <==> counter >= max && a.request.Failed?
    ensures v == Accepted <==>
              (a.marshal.Done? || counter >= max) && a.request.Done?
              && a.response.Status? && a.response.code == StatusAccepted
  {
    if a.marshal.Failed? && counter < max then MarshalError(a.marshal.err)
    else if a.request.Failed? && counter < max then RequestError(a.request.err)
    else if a.request.Failed? then NilRequestPanic
    else ResponseVerdict(a.response)
  }

  /** The evidently intended verdict: an error at any stage ends the attempt, whatever
      the counter; only the bookkeeping depends on the cap. */
  function ClassifyFixed(a: Attempt): (v: Verdict)
    ensures v != NilRequestPanic
    ensures v == Accepted <==> Delivered(a)
  {
    if a.marshal.Failed? then MarshalError(a.marshal.err)
    else if a.request.Failed? then RequestError(a.request.err)
    else ResponseVerdict(a.response)
  }

  /** The written code and the intended one reach the same verdict exactly when the counter
      is below the cap or both the body and the request were built: they differ only on a
      stage error at the cap. */
  lemma ClassifyAgreesUnlessStageFailsAtCap(counter: nat, max: nat, a: Attempt)
    ensures Classify(counter, max, a) == ClassifyFixed(a)
            <==> counter < max || (a.marshal.Done? && a.request.Done?)
  {
  }

  /** A host `url.Parse` rejects makes every request fail to build; with the counter at its
      cap of 2 the written code then dereferences the nil request. */
  lemma ClassifyPanicsAtCap()
    ensures Classify(2, 2, Attempt(Done, Failed("invalid character \" \" in host name"), Status(202, None, "")))
            == NilRequestPanic
    ensures ClassifyFixed(Attempt(Done, Failed("invalid character \" \" in host name"), Status(202, None, "")))
            == RequestError("invalid character \" \" in host name")
  {
  }

  /** The failure-counter policy: bump only while below the cap. */
  function Charge(counter: nat, max: nat): (r: nat)
    ensures counter <= r <= counter + 1
    ensures r == counter + 1 <==> counter < max
    ensures counter <= max ==> r <= max
  {
    if counter < max then counter + 1 else counter
  }

}

=== FILE: wrappers.dfy ===
/** The optional value used wherever the Go code can produce "nothing" or fail softly. */
module Wrappers {

  datatype Option<+T> = None | Some(value: T)

}
